=== FILE: README.md ===
# FAIR-CA indicators backend: scoring, metadata merging and automated evaluators

A Dafny model of the core of the FAIR-CA indicators backend. The backend assesses
how FAIR a computational model or a clinical study record is. It keeps a
session of tasks, one per indicator. Each task has a status (`queued` …
`not_applicable`), a priority, and a score derived from its status. When no
task is unresolved, the session's handler computes three aggregates. Model
files and COMBINE archives are loaded into a `CombineArchive`. Its
`ModelMetadata` merges the items of attached metadata objects. Celery tasks
evaluate indicators on the loaded data or on a CSH JSON
record, and report `success` or `failed`.

The modules follow the source files:

| module | file | what it holds |
|---|---|---|
| `Results`, `Errors`, `Json`, `Strings` | — | `Option`/`Result`, the Python exceptions the code can raise, JSON values with Python truthiness, and the few `str` operations used |
| `Tasks` | `app/models/tasks.py` | the status and priority enumerations, the `score` validator, building a `Task`, a task dictionary's ids |
| `Sessions` | `app/models/session.py` | `Session`, `is_running`, `run_statistics` and its three calculators |
| `Metadata` | `app/parsers/abstract.py` | `ModelMetadata`: merged set properties, the creation-date lookup, `add_internal_metadata`, `export_set` |
| `Archive` | `app/models/combine_object.py` | `PARSERS`, format dispatch for single files and archives, metadata precedence, `dict` |
| `Route` | `app/models/csh.py`, `app/celery/automated_tasks/csh_helpers.py` | `check_route` on documents and on JSON text, `evaluate` |
| `Doi` | `app/celery/automated_tasks/csh_fair.py` | `is_doi` as a scan, proved equal to the regular expression read as a decomposition |
| `CshFair` | `app/celery/automated_tasks/csh_fair.py` | `incoperate_results` and the identifier and access-information tasks |
| `ModelChecks` | `f4_model_metadata_harvestable_task.py`, `f1_model_persistent_identifier_task.py`, `tasks.py` (celery), `app/models/automated_tasks/f1_model_persistent_identifier.py` | the model-file indicators |

The model iterates dictionaries in insertion order: `Session.tasks` and
`Task.children` are sequences of (key, task) entries. JSON objects are maps,
because no modelled rule depends on their order. Scores are `real`. The parsing
libraries (libsbml, libcellml, rdflib, libcombine) are function parameters
(`Archive.Readers`, `Archive.Manifest`), and so is `json.loads`
(`parse: string -> Option<Json>`). The HTTP `PATCH` that reports a task status
is left out. Every operation that can raise returns a `Result` whose `Err`
names the Python exception, except the four calculators `Sessions.Mean`,
`Sessions.ScoreEssential`, `Sessions.ScoreAll` and `Sessions.NaRatio`. Their
`requires` exclude the cases that raise, and `Sessions.RunStatistics`, their
only caller, returns those cases as errors.

Three facts about the aggregates follow the code as written:
- The means divide by the number of selected tasks, so an empty essential
  selection raises `ZeroDivisionError` (`Sessions.RunStatistics`).
- The overall mean divides by the applicable count, which gives 1/2 in
  `Sessions.ScoringScenario`.
- A session has three aggregate fields: the essential mean, the overall mean
  and the not-applicable ratio.

## Model

| member | source | states |
|---|---|---|
| Tasks.ParseStatus | app/models/tasks.py:5-12 | converting a string to `TaskStatus` succeeds exactly on the seven values, and is the inverse of the value map |
| Tasks.EnumerationSizes | app/models/tasks.py:5-18 | seven statuses and three priorities, every member listed, values distinct |
| Tasks.MakeScore | app/models/tasks.py:37-41 | score 1 iff `success`, 0.5 iff `warnings`, 0 iff `failed`; no score for the other statuses or for a status that failed validation |
| Tasks.NewTask | app/models/tasks.py:25-41 | building a task fails with a validation error iff the status string is not a status; otherwise the task keeps its ids and status, keeps every supplied priority, children, comment and disabled flag, and carries the score its status gives |
| Tasks.DefaultTask | app/models/tasks.py:25-41 | with only ids given, the task is queued, essential, enabled, childless, with no score, whatever score was passed |
| Tasks.SuppliedScoreIgnored | app/models/tasks.py:37-41 | the validator ignores the supplied score: the built task never depends on it |
| Tasks.TaskDictIds | app/celery/automated_tasks/csh_fair.py:25-26 | reading the ids raises `KeyError` on `session_id` first, then on `id`, and succeeds iff both are present |
| Sessions.NewSession | app/models/session.py:16-23 | a new session is queued, has no tasks and no aggregates |
| Sessions.IsRunning | app/models/session.py:37-38 | a session is running iff some top-level task is `queued` or `started` |
| Sessions.Count | app/models/session.py:48-52 | the count of selected tasks is at most the number of tasks, 0 iff none is selected, all iff every one is |
| Sessions.SumScores | app/models/session.py:57-63 | the `sum` over the selected scores is 0 when no task is selected |
| Sessions.SumScoresLeftFold | app/models/session.py:57-63 | the recursive sum agrees with Python's left-to-right `sum`: the last task's share is added to the sum over the others |
| Sessions.CountMonotone | app/models/session.py:48-52 | a wider selection never counts fewer tasks, so essential-applicable ≤ applicable |
| Sessions.SumBounds | app/models/session.py:57-63 | with scores in [0, 1] the summed score lies in [0, count]; it equals the count iff every selected score is 1 and is 0 iff every one is 0 |
| Sessions.AggregatesLocal | app/models/session.py:48-63 | counts and sums see a task only through the selection and its score |
| Sessions.Mean | app/models/session.py:57-63 | a mean of unit scores lies in [0, 1]; it is 1 iff all selected scores are 1 and 0 iff all are 0 |
| Sessions.ScoreEssential | app/models/session.py:57-60 | the essential mean is in [0, 1]; 1 iff every essential applicable task scored 1, 0 iff every one scored 0 |
| Sessions.ScoreAll | app/models/session.py:62-63 | the same for the applicable tasks of any priority |
| Sessions.NaRatio | app/models/session.py:54-55 | the not-applicable ratio is in [0, 1]; 0 iff no task is not applicable, 1 iff all are |
| Sessions.RunStatistics | app/models/session.py:40-63 | a running session is unchanged. Otherwise it succeeds iff every applicable task has a score and some essential task is applicable, and then exactly the three aggregates change, to the essential mean, the overall mean and the not-applicable ratio; the ratio lands in [0, 1] and the means in [0, 1] for unit scores. An empty session raises `ZeroDivisionError`; the only errors are `TypeError` and `ZeroDivisionError`, and a failure is `ZeroDivisionError` iff no essential task is applicable |
| Sessions.WellScoredInUnit | app/models/tasks.py:37-41 | scores given by the validator lie in [0, 1] |
| Sessions.SelectedScoreMeansStatus | app/models/tasks.py:37-41 | for validator-scored tasks, all scores 1 iff all succeeded, all 0 iff all failed |
| Sessions.StatisticsMeaning | app/models/session.py:40-63 | after statistics, the essential mean is 1 iff every essential applicable task succeeded and 0 iff every one failed; likewise the overall mean |
| Sessions.ErrorTaskBreaksStatistics | app/models/session.py:57-63 | an `error` task has no score, so a finished session containing one fails its statistics, with `TypeError` when it is essential |
| Sessions.ChildrenIgnored | app/models/session.py:37-63 | sessions whose tasks differ only in their children agree on running state and statistics |
| Sessions.SameSummariesSameStatistics | app/models/session.py:37-63 | sessions whose tasks agree in status, priority and score, position by position, agree on running state and statistics |
| Sessions.ScoringScenario | app/models/session.py:40-63 | one success, one failure and one not-applicable essential task give 0.5, 0.5 and 1/3 |
| Sessions.IsRunningAsWritten | app/models/session.py:37-38 | iterating the dictionary's keys answers only for an empty session; otherwise it raises `AttributeError` |
| Sessions.RunStatisticsAsWritten | app/models/session.py:40-63 | as written, success requires the as-written `is_running` to answer `True` and leaves the session unchanged; any error is `ZeroDivisionError` or the `AttributeError` of key iteration, which a non-empty session raises |
| Sessions.RunStatisticsAsWrittenNeverSucceeds | app/models/session.py:37-63 | as written, every session raises: `AttributeError` with tasks, `ZeroDivisionError` without |
| Sessions.KeysIterationCounterexample | app/models/session.py:37-38 | a finished one-task session raises as written, but is not running and scores 1 when the values are read |
| Metadata.NewMetadata | app/parsers/abstract.py:30-40 | a new object has every set empty, no creation date and nothing attached |
| Metadata.UnionOwn | app/parsers/abstract.py:47-52 | the union holds exactly the items of some listed object's own set |
| Metadata.Property | app/parsers/abstract.py:46-115 | a set property holds exactly the own items and the own items of each attached object |
| Metadata.CreationDate | app/parsers/abstract.py:54-64 | an own creation date is returned as is |
| Metadata.FirstAttachedDate | app/parsers/abstract.py:56-61 | the scan over attached objects answers "" iff none of them has a creation date |
| Metadata.FirstAttachedDateIsFirst | app/parsers/abstract.py:56-61 | a non-empty answer is the date of the first attached object that has one |
| Metadata.CreationDateFound | app/parsers/abstract.py:54-64 | the creation date is non-empty iff a date is reachable through attached objects at any depth |
| Metadata.AddInternal | app/parsers/abstract.py:117-118 | attaching appends the object to the list and changes nothing else |
| Metadata.AddInternalProperty | app/parsers/abstract.py:46-118 | after attaching, every set property is the old one plus the attached object's own items |
| Metadata.AddInternalCreationDate | app/parsers/abstract.py:54-118 | attaching keeps an existing creation date, and otherwise yields the attached object's date |
| Metadata.OneLevelOnly | app/parsers/abstract.py:46-52 | items attached to an attached object do not reach the outer object's set properties |
| Metadata.DateLookupIsTransitive | app/parsers/abstract.py:54-61 | the creation-date lookup does reach through an attached object |
| Metadata.ExportSet | app/parsers/abstract.py:42-44 | the exported list holds each item of the set exactly once |
| Strings.AfterLastDot | app/models/combine_object.py:42 | the extension is a dot-free suffix that is the whole name or follows a dot |
| Strings.AfterLastDotUnique | app/models/combine_object.py:42 | exactly one string meets that description |
| Strings.AfterLastDotExtension | app/models/combine_object.py:42 | `stem.ext` with a dot-free `ext` yields `ext` |
| Archive.SelectParser | app/models/combine_object.py:61-77 | the master file's format picks SED-ML before SBML before CellML, each iff no earlier one is mentioned; a format mentioning none of them but COPASI raises the COPASI error, and one mentioning none of the four raises the unknown-format error |
| Archive.FromFile | app/models/combine_object.py:36-48 | a single file loads iff its extension has both a model and a metadata parser. An unknown extension raises `KeyError` on itself, an entry without a model parser raises `KeyError("model")`, and one without a metadata parser raises `KeyError("meta")`. The loaded object keeps the file name as its path and has no locations, no model location, one entry, and the model object and metadata read by that extension's parsers |
| Archive.EntryKeys | app/models/combine_object.py:109-118 | the entry dictionary's keys are exactly the entry locations, each once, and no more than the entries |
| Archive.EntryKeysDistinct | app/models/combine_object.py:109-118 | locations without repeats become the keys in their own order |
| Archive.FromArchive | app/models/combine_object.py:50-116 | an unreadable archive raises `IOError` and a missing master file raises; a format error from the dispatch is raised unchanged; a readable archive with a master file loads iff its format selects SBML or CellML; a loaded archive keeps the archive's file name as its path and records the master's location, all locations, the distinct entry locations, and the model object read by the selected parser at the master's location |
| Archive.SedmlMasterFails | app/models/combine_object.py:61-96 | a master file whose format mentions SED-ML always fails at the model-parser lookup |
| Archive.ArchiveMetadata | app/models/combine_object.py:79-106 | with an RDF description the properties are the description's plus the model file's, and the description's date wins; without one, the model file's metadata is used alone |
| Archive.SbmlFileLoads | app/models/combine_object.py:26-48 | `model.xml` loads as a single SBML file |
| Archive.SedmlFileFails | app/models/combine_object.py:42-43 | `sim.sedml` fails at the `model` lookup |
| Archive.ArchiveDict | app/models/combine_object.py:120-127 | the dictionary form has exactly the five keys: the path, each location in order, the model object, the master's location or `None`, and the metadata |
| Route.CheckRoute | app/models/csh.py:10-20 | an empty route returns the document; any other answer is `False` or the value at the nested path |
| Route.Step | app/models/csh.py:13-18 | a successful turn of the loop agrees with the one-key reference lookup; an object never raises; a list or string raises `TypeError` iff the membership test passes, and other scalars always raise |
| Route.CheckRouteFound | app/models/csh.py:10-20 | when every key is present, the walk returns the nested value |
| Route.CheckRouteMissing | app/models/csh.py:13-18 | at the first missing key the walk answers `False`, whatever the later keys are |
| Route.CheckRouteCompose | app/models/csh.py:12-14 | walking `a + b` is walking `b` from where `a` ends |
| Route.FalseIsAmbiguous | app/models/csh.py:16-20 | a present `False` and a missing key give the same answer |
| Route.Evaluate | app/models/csh.py:3-7 | a schema version other than "3.1" raises `UnboundLocalError`; with "3.1", a present identifier is printed (the model returns it) |
| Route.CheckRouteText | app/celery/automated_tasks/csh_helpers.py:3-14 | malformed text raises a decode error; parsed text is walked like a document |
| Doi.DigitRun | app/celery/automated_tasks/csh_fair.py:15 | the run length counts exactly the digits that follow, and stops at a non-digit |
| Doi.IsDoi | app/celery/automated_tasks/csh_fair.py:14-17 | an accepted text starts with `10.` and has at least nine characters: the prefix, four digits, the slash and one suffix character; `Doi.IsDoiMatchesPattern` equates it with the pattern |
| Doi.IsDoiSound | app/celery/automated_tasks/csh_fair.py:14-17 | every text the scan accepts matches the pattern |
| Doi.IsDoiComplete | app/celery/automated_tasks/csh_fair.py:14-17 | every text matching the pattern is accepted by the scan |
| Doi.IsDoiMatchesPattern | app/celery/automated_tasks/csh_fair.py:14-17 | the scan accepts exactly the texts the pattern matches, a final newline included |
| Doi.LowercaseNeverDoi | app/celery/automated_tasks/csh_fair.py:15 | no text with a lower-case letter matches the pattern or is accepted by the scan |
| Doi.DoiAccepted | app/celery/automated_tasks/csh_fair.py:15 | four digits and a trailing newline are accepted |
| Doi.DoiRejected | app/celery/automated_tasks/csh_fair.py:15 | three or ten digits, and an empty suffix, are rejected |
| CshFair.IncorporateResults | app/celery/automated_tasks/csh_fair.py:21-44 | id errors come first, then an unknown result raises `ValueError`; with valid ids and a known result the call succeeds, returning that status in test mode and nothing otherwise |
| CshFair.IdentifierDecision | app/celery/automated_tasks/csh_fair.py:82-91 | a string identifier yields `success` or `failed`; anything else, including the `False` of a missing route, raises `TypeError` |
| CshFair.IdentifierDecisionMeaning | app/celery/automated_tasks/csh_fair.py:82-91 | an identifier succeeds iff it matches the DOI pattern or starts with `DRKS` |
| CshFair.GloballyUniqueIdentifier | app/celery/automated_tasks/csh_fair.py:54-93 | the task returns nothing; it succeeds iff the payload parses, the identifier is a string, and the ids are present. A parse or walk error is raised first and unchanged, then a non-string identifier raises `TypeError`, and only then a missing id raises `KeyError` |
| CshFair.AccessDecision | app/celery/automated_tasks/csh_fair.py:145-154 | `success` iff the plan is exactly the "Yes, there is a plan…" answer |
| CshFair.MissingPlanFails | app/celery/automated_tasks/csh_fair.py:145-154 | a sharing plan missing at any key gives `False` and so `failed` |
| CshFair.ContainsAccessInformation | app/celery/automated_tasks/csh_fair.py:139-156 | the task returns nothing; it succeeds iff the route walk succeeds and the ids are present. A parse or walk error is raised first and unchanged, and only then a missing id raises `KeyError` |
| ModelChecks.AllEmptyValues | app/celery/automated_tasks/f4_model_metadata_harvestable_task.py:10-11 | a dictionary whose values are all empty is not non-empty, whatever its keys |
| ModelChecks.OneValueSuffices | app/celery/automated_tasks/f4_model_metadata_harvestable_task.py:10-11 | one truthy value makes any dictionary non-empty |
| ModelChecks.ValuesOnly | app/celery/automated_tasks/f4_model_metadata_harvestable_task.py:10-11 | dictionaries with the same values agree |
| ModelChecks.DictNonEmpty | app/celery/automated_tasks/f4_model_metadata_harvestable_task.py:10-11 | `any` over the truthiness of the values: true iff some value of the dictionary is truthy, so never for an empty dictionary |
| ModelChecks.HarvestableDecision | app/celery/automated_tasks/f4_model_metadata_harvestable_task.py:44-49 | a missing metadata key raises `KeyError` and a non-dictionary raises `AttributeError`; otherwise `success` iff some value is truthy, else `failed` |
| ModelChecks.MetadataHarvestable | app/celery/automated_tasks/f4_model_metadata_harvestable_task.py:13-56 | ids first; then the decision's `KeyError` or `AttributeError` is raised unchanged; in test mode the decision is returned, otherwise nothing |
| ModelChecks.EmptyMetadataFails | app/celery/automated_tasks/f4_model_metadata_harvestable_task.py:43-56 | nine empty metadata fields give `failed` in test mode |
| ModelChecks.PersistentIdentifierDecision | app/celery/automated_tasks/f1_model_persistent_identifier_task.py:36-41 | a missing model object raises `KeyError` and a non-dictionary raises `AttributeError`; otherwise `success` iff `id` is present and truthy |
| ModelChecks.PersistentIdentifierTask | app/celery/automated_tasks/f1_model_persistent_identifier_task.py:8-52 | the task as written reads the ids first, then raises the rule's `KeyError` or `AttributeError` unchanged, and otherwise never returns a status |
| ModelChecks.PersistentIdentifierTaskSilent | app/celery/automated_tasks/f1_model_persistent_identifier_task.py:8-52 | even a model with an identifier yields no status |
| ModelChecks.PersistentIdentifierTaskWithTest | app/celery/automated_tasks/f1_model_persistent_identifier_task.py:8-52 | with a `test` flag: ids first, then the rule's error raised unchanged, and test mode returns the decision |
| ModelChecks.WithTestAgrees | app/celery/automated_tasks/f1_model_persistent_identifier_task.py:8-52 | outside test mode both versions agree; in test mode the corrected one reports the decision |
| ModelChecks.Evaluate | app/models/automated_tasks/f1_model_persistent_identifier.py:6-10 | `success` iff the key `id` is present, else `failed` |
| ModelChecks.TasksPersistentIdentifier | app/celery/automated_tasks/tasks.py:9-28 | succeeds iff the ids are present, and returns the string value of `Evaluate`'s status |
| ModelChecks.EvaluateKeysOnly | app/models/automated_tasks/f1_model_persistent_identifier.py:6-10 | the evaluator depends only on the key set |
| ModelChecks.TruthyImpliesPresent | app/celery/automated_tasks/f1_model_persistent_identifier_task.py:36-41 | where the celery rule succeeds on the model object, the evaluator does too |
| ModelChecks.EmptyIdentifierDisagrees | app/celery/automated_tasks/f1_model_persistent_identifier_task.py:36-41 | an empty `id` succeeds for the evaluator and fails for the celery rule |
| ModelChecks.ArchiveEvaluation | app/models/combine_object.py:120-127 | on an archive's dictionary form neither model-file rule raises, and each decides from its own part |

## Left out

- HTTP requests: the `PATCH` that `incoperate_results` and the celery tasks send, and the URL built from settings. They are network I/O.
- `print` calls, `get_settings()` and the Celery registration. These are logging and configuration.
- The parsing libraries: libsbml, libcellml, rdflib, libcombine, and the temporary files the archive is extracted into. They are foreign code and appear as `Readers` and `Manifest`.
- `SessionHandler.__init__` and `retrieve_metadata`: the latter does nothing, and the handler holds no logic beyond the session.
- `TaskDescription` and `TaskStatusIn`: plain records with no behaviour.
- Pydantic's own validation of `Session.subject` (a URL or file path), and of field types in general.
- Partial updates: `run_statistics` assigns `score_essential` before a later calculator raises. `Sessions.RunStatistics` returns an error and drops that partial assignment.
- Object identity: the same metadata object attached twice, or attached to itself, is not modelled, because the metadata is a value.
- Settings the code reads but `app/dependencies/settings.py` does not declare: `Config` has no `celery_key`, `backend_url` or `backend_port` field, and a pydantic `BaseSettings` reads only declared fields. As written, `incoperate_results` prints `config.celery_key` right after reading the ids, and `f4_model_metadata_harvestable` reads it after its decision. Both raise `AttributeError` before any `ValueError` or test-mode return, so every call of `CshFair.IncorporateResults`, `CshFair.GloballyUniqueIdentifier`, `CshFair.ContainsAccessInformation`, `ModelChecks.MetadataHarvestable` and `ModelChecks.EmptyMetadataFails` that gets that far would raise. The model assumes the settings define these three fields. The `sleep(10)` in `app/celery/automated_tasks/tasks.py` is left out too: it only delays.
- Imports that do not resolve in the files modelled: `app/models/__init__.py` imports `SessionSubjectIn`, `SubjectType`, `Indicator`, `IndicatorDependency` and `AutomatedTask`, which `session.py` and `tasks.py` do not define. `F1ModelPersistentIdentifier`'s base class `AutomatedTask` is one of them. `app/celery/automated_tasks/__init__.py` imports a `csh_f2_persistent_identifier_task` module that is absent. As written, these make `import app.models` and `from ... import models` raise `ImportError` before any modelled logic runs. The model assumes these imports resolve.
- `csh_fair.py`'s commented-out tasks (f1_1, f2, f3, f4): they are not code.
- Python's `\d` also matches non-ASCII digits. `Doi.IsDoi` accepts ASCII digits only.
- `ExportSet`: `str(item)` is not modelled, because items are already strings. Two objects with the same string form would collapse to one item.
- `Sessions.RunStatistics` models the code's order of failures only. Python evaluates `sum(...)` before the division, so a missing score (`TypeError`) is reported before a zero count (`ZeroDivisionError`).
- `Archive.FromArchive` does not state the metadata merge itself; `Archive.ArchiveMetadata` states it.
- `Metadata.CreationDate`'s own contract states only the own-date case. The lookup through attached objects is stated by `Metadata.FirstAttachedDate`, `Metadata.FirstAttachedDateIsFirst` and `Metadata.CreationDateFound`.

## Findings

| source | as written | input that shows it | evidently intended | confidence | as-written member | corrected member |
|---|---|---|---|---|---|---|
| app/models/session.py:37-38 | `for t in self.session_model.tasks` iterates the dictionary's keys, so `t.status` is an attribute of a string | any session with one task: `AttributeError` | iterate `tasks.values()` | high, not executed | Sessions.IsRunningAsWritten, Sessions.KeysIterationCounterexample | Sessions.IsRunning |
| app/models/session.py:40-63 | `run_statistics` and the calculators iterate keys too, and with no tasks the essential count is 0 | an empty session: `ZeroDivisionError`; any other session: `AttributeError` | compute the aggregates over the task values | high, not executed | Sessions.RunStatisticsAsWrittenNeverSucceeds | Sessions.RunStatistics |
| app/celery/automated_tasks/f1_model_persistent_identifier_task.py:8-52 | the task takes no `test` flag and returns nothing, although `tests/community_specific/automated_tasks/test_f1_model_persistent_identifier.py` passes `True` as a third argument and compares the result with a status | a model object `{"id": "m"}`: no status is returned | accept `test` and return the status in test mode, as the f4 task does | medium, not executed | ModelChecks.PersistentIdentifierTaskSilent | ModelChecks.PersistentIdentifierTaskWithTest |

=== FILE: archive.dfy ===
/** `CombineArchive.__init__` of `app/models/combine_object.py`: choosing a
    parser for a single model file or for an archive's master file, and
    deciding which metadata object is primary. The libcombine archive is given
    as a `Manifest`, and the model and metadata parsers as `Readers`. */
module Archive {
  import opened Results
  import opened Errors
  import opened Strings
  import opened Json
  import Metadata

  datatype ModelParser = SbmlModelParser | CellMLModelParser

  datatype MetaParser = SbmlMetaParser | CellMLMetaParser | RdfMetaParser

  /** One entry of `PARSERS`; a missing key is `None`. */
  datatype ParserEntry = ParserEntry(model: Option<ModelParser>, meta: Option<MetaParser>)

  /** The class attribute `PARSERS`; the `sedml` entry is empty. */
  const Parsers: map<string, ParserEntry> := map[
    "xml" := ParserEntry(Some(SbmlModelParser), Some(SbmlMetaParser)),
    "sbml" := ParserEntry(Some(SbmlModelParser), Some(SbmlMetaParser)),
    "cellml" := ParserEntry(Some(CellMLModelParser), Some(CellMLMetaParser)),
    "sedml" := ParserEntry(None, None),
    "rdf" := ParserEntry(None, Some(RdfMetaParser))]

  /** What a model parser produced; the evaluators only read its `id`. */
  datatype ModelObject = ModelObject(id: Option<string>)

  /** The parsing libraries: each reader is applied to a file or archive location. */
  datatype Readers = Readers(
    readModel: (ModelParser, string) -> ModelObject,
    readMeta: (MetaParser, string) -> Metadata.ModelMetadata)

  datatype MasterFile = MasterFile(location: string, format: string)

  /** What libcombine reports about an archive: whether it could be read, its
      master file, the locations that have RDF metadata, all locations, and the
      locations of its entries. */
  datatype Manifest = Manifest(
    readable: bool,
    master: Option<MasterFile>,
    described: set<string>,
    locations: seq<string>,
    entries: seq<string>)

  datatype CombineArchive = CombineArchive(
    path: string,
    isFromArchive: bool,
    locations: seq<string>,
    mainModelObject: ModelObject,
    mainModelLocation: Option<string>,
    mainModelMetadata: Metadata.ModelMetadata,
    entryKeys: seq<string>)

  /** The keys of `self.entries`: each entry's location is written into a
      dictionary in turn, so a repeated location keeps the position of its
      first occurrence and appears once. */
  function EntryKeys(entries: seq<string>): (r: seq<string>)
    ensures forall x :: x in r <==> x in entries
    ensures forall i, j :: 0 <= i < j < |r| ==> r[i] != r[j]
    ensures |r| <= |entries|
  {
    if |entries| == 0 then []
    else
      var earlier := EntryKeys(entries[..|entries| - 1]);
      var loc := entries[|entries| - 1];
      assert forall x :: x in entries <==> x in entries[..|entries| - 1] || x == loc;
      if loc in earlier then earlier else earlier + [loc]
  }

  /** Locations without repeats are kept as they are, in order. */
  lemma {:induction false} EntryKeysDistinct(entries: seq<string>)
    requires forall i, j :: 0 <= i < j < |entries| ==> entries[i] != entries[j]
    ensures EntryKeys(entries) == entries
  {
    if |entries| > 0 {
      var init := entries[..|entries| - 1];
      EntryKeysDistinct(init);
      assert entries[|entries| - 1] !in init;
      assert init + [entries[|entries| - 1]] == entries;
    }
  }

  predicate MentionsSedml(format: string) {
    Contains(format, "sed-ml") || Contains(format, "sedml")
  }

  /** The ordered substring tests on the master file's format, answering the
      key into `Parsers`. */
  function SelectParser(format: string): (r: Result<string, PyError>)
    ensures r == Ok("sedml") <==> MentionsSedml(format)
    ensures r == Ok("sbml") <==> !MentionsSedml(format) && Contains(format, "sbml")
    ensures r == Ok("cellml") <==> !MentionsSedml(format) && !Contains(format, "sbml") && Contains(format, "cellml")
    ensures r == Err(CombineArchiveException(CopasiUnsupported)) <==>
              !MentionsSedml(format) && !Contains(format, "sbml") && !Contains(format, "cellml")
              && Contains(format, "copasi")
    ensures r == Err(CombineArchiveException(UnknownFormat(format))) <==>
              !MentionsSedml(format) && !Contains(format, "sbml") && !Contains(format, "cellml")
              && !Contains(format, "copasi")
    ensures r.Err? ==> r.error.CombineArchiveException?
    ensures r.Ok? ==> r.value in Parsers
  {
    if MentionsSedml(format) then Ok("sedml")
    else if Contains(format, "sbml") then Ok("sbml")
    else if Contains(format, "cellml") then Ok("cellml")
    else if Contains(format, "copasi") then Err(CombineArchiveException(CopasiUnsupported))
    else Err(CombineArchiveException(UnknownFormat(format)))
  }

  /** `CombineArchive(filename, file_is_archive=False)`: the text after the last
      dot picks the parser; an unknown key, or an entry without a model or
      metadata parser, raises `KeyError`. */
  function FromFile(filename: string, readers: Readers): (r: Result<CombineArchive, PyError>)
    ensures var key := AfterLastDot(filename);
            r.Ok? <==> key in Parsers && Parsers[key].model.Some? && Parsers[key].meta.Some?
    ensures var key := AfterLastDot(filename);
            key !in Parsers ==> r == Err(KeyError(key))
    ensures var key := AfterLastDot(filename);
            key in Parsers && Parsers[key].model.None? ==> r == Err(KeyError("model"))
    ensures var key := AfterLastDot(filename);
            key in Parsers && Parsers[key].model.Some? && Parsers[key].meta.None? ==> r == Err(KeyError("meta"))
    ensures r.Ok? ==> r.value.path == filename
    ensures r.Ok? ==> && !r.value.isFromArchive
                      && r.value.locations == []
                      && r.value.mainModelLocation == None
                      && r.value.entryKeys == [filename]
                      && r.value.mainModelMetadata == readers.readMeta(Parsers[AfterLastDot(filename)].meta.value, filename)
                      && r.value.mainModelObject == readers.readModel(Parsers[AfterLastDot(filename)].model.value, filename)
  {
    var key := AfterLastDot(filename);
    if key !in Parsers then Err(KeyError(key))
    else if Parsers[key].model.None? then Err(KeyError("model"))
    else if Parsers[key].meta.None? then Err(KeyError("meta"))
    else
      var meta := readers.readMeta(Parsers[key].meta.value, filename);
      Ok(CombineArchive(
        filename, false, [],
        readers.readModel(Parsers[key].model.value, filename),
        None,
        meta,
        [filename]))
  }

  /** `CombineArchive(filename)`: read the archive, find its master file, choose
      a parser from the master's format, and merge metadata. When the archive
      describes the master file in RDF that description is primary and the
      metadata found in the model file is attached to it; otherwise the model
      file's metadata is used alone. */
  function FromArchive(filename: string, manifest: Manifest, readers: Readers)
    : (r: Result<CombineArchive, PyError>)
    ensures !manifest.readable ==> r == Err(IOError(filename))
    ensures manifest.readable && manifest.master.None? ==> r == Err(CombineArchiveException(NoMasterFile))
    ensures manifest.master.Some? && r.Ok? ==>
              && SelectParser(manifest.master.value.format).Ok?
              && SelectParser(manifest.master.value.format) != Ok("sedml")
              && r.value.isFromArchive
              && r.value.path == filename
              && r.value.mainModelLocation == Some(manifest.master.value.location)
              && r.value.locations == manifest.locations
              && r.value.entryKeys == EntryKeys(manifest.entries)
    ensures manifest.master.Some? && r.Ok? ==>
              && Parsers[SelectParser(manifest.master.value.format).value].model.Some?
              && r.value.mainModelObject
                 == readers.readModel(Parsers[SelectParser(manifest.master.value.format).value].model.value,
                                      manifest.master.value.location)
    ensures manifest.readable && manifest.master.Some?
            && SelectParser(manifest.master.value.format).Err? ==>
              r == Err(SelectParser(manifest.master.value.format).error)
    ensures manifest.readable && manifest.master.Some? ==>
              (r.Ok? <==> SelectParser(manifest.master.value.format) in {Ok("sbml"), Ok("cellml")})
  {
    if !manifest.readable then Err(IOError(filename))
    else if manifest.master.None? then Err(CombineArchiveException(NoMasterFile))
    else
      var master := manifest.master.value;
      var key :- SelectParser(master.format);
      var described := if master.location in manifest.described
                       then Some(readers.readMeta(RdfMetaParser, master.location))
                       else None;
      var entry := Parsers[key];
      if entry.model.None? then Err(KeyError("model"))
      else if entry.meta.None? then Err(KeyError("meta"))
      else
        var found := readers.readMeta(entry.meta.value, master.location);
        Ok(CombineArchive(
          filename, true, manifest.locations,
          readers.readModel(entry.model.value, master.location),
          Some(master.location),
          if described.None? then found else Metadata.AddInternal(described.value, found),
          EntryKeys(manifest.entries)))
  }

  /** The `sedml` entry of `Parsers` is empty, so a master file whose format
      mentions SED-ML always fails at the `parser["model"]` lookup, even when the
      format also mentions SBML. */
  lemma SedmlMasterFails(filename: string, manifest: Manifest, readers: Readers)
    requires manifest.readable && manifest.master.Some?
    requires MentionsSedml(manifest.master.value.format)
    ensures FromArchive(filename, manifest, readers) == Err(KeyError("model"))
  {
  }

  /** The metadata of an archive: with an RDF description of the master file,
      every set-valued property is the description's property plus the items the
      model file itself carries, and the description's creation date wins when it
      has one; without a description, the model file's metadata alone. */
  lemma ArchiveMetadata(filename: string, manifest: Manifest, readers: Readers, f: Metadata.Field)
    requires FromArchive(filename, manifest, readers).Ok?
    ensures var master := manifest.master.value;
            var found := readers.readMeta(Parsers[SelectParser(master.format).value].meta.value, master.location);
            var described := readers.readMeta(RdfMetaParser, master.location);
            var meta := FromArchive(filename, manifest, readers).value.mainModelMetadata;
            && (master.location in manifest.described ==>
                  && Metadata.Property(meta, f) == Metadata.Property(described, f) + Metadata.Own(found, f)
                  && Metadata.CreationDate(meta) == (if Metadata.CreationDate(described) != ""
                                                     then Metadata.CreationDate(described)
                                                     else Metadata.CreationDate(found)))
            && (master.location !in manifest.described ==> meta == found)
  {
    var master := manifest.master.value;
    var found := readers.readMeta(Parsers[SelectParser(master.format).value].meta.value, master.location);
    var described := readers.readMeta(RdfMetaParser, master.location);
    if master.location in manifest.described {
      Metadata.AddInternalProperty(described, found, f);
      Metadata.AddInternalCreationDate(described, found);
    }
  }

  /** A single SBML file loads with no locations and no model location. */
  lemma SbmlFileLoads(readers: Readers)
    ensures FromFile("model.xml", readers).Ok?
    ensures FromFile("model.xml", readers).value.locations == []
    ensures FromFile("model.xml", readers).value.mainModelLocation == None
  {
    AfterLastDotExtension("model", "xml");
    assert "model" + "." + "xml" == "model.xml";
    assert Parsers["xml"].model.Some? && Parsers["xml"].meta.Some?;
  }

  /** A single SED-ML file fails at the `["model"]` lookup. */
  lemma SedmlFileFails(readers: Readers)
    ensures FromFile("sim.sedml", readers) == Err(KeyError("model"))
  {
    AfterLastDotExtension("sim", "sedml");
    assert "sim" + "." + "sedml" == "sim.sedml";
    assert Parsers["sedml"].model.None?;
  }

  /** `CombineArchive.dict`: the five keys the evaluators receive as `data`.
      The parsers' own `dict` methods are given as parameters. */
  function ArchiveDict(
    a: CombineArchive,
    objectDict: ModelObject -> map<string, Json>,
    metadataDict: Metadata.ModelMetadata -> map<string, Json>)
    : (r: map<string, Json>)
    ensures r.Keys == {"path", "locations", "main_model_object", "main_model_location", "main_model_metadata"}
    ensures r["main_model_object"] == Object(objectDict(a.mainModelObject))
    ensures r["main_model_metadata"] == Object(metadataDict(a.mainModelMetadata))
    ensures r["path"] == Str(a.path)
    ensures r["main_model_location"] == if a.mainModelLocation.Some? then Str(a.mainModelLocation.value) else Null
    ensures r["locations"].Array? && |r["locations"].items| == |a.locations|
    ensures forall i :: 0 <= i < |a.locations| ==> r["locations"].items[i] == Str(a.locations[i])
  {
    map[
      "path" := Str(a.path),
      "locations" := Array(seq(|a.locations|, i requires 0 <= i < |a.locations| => Str(a.locations[i]))),
      "main_model_object" := Object(objectDict(a.mainModelObject)),
      "main_model_location" := (match a.mainModelLocation case Some(l) => Str(l) case None => Null),
      "main_model_metadata" := Object(metadataDict(a.mainModelMetadata))]
  }
}

=== FILE: csh_fair.dfy ===
/** The decision rules of `app/celery/automated_tasks/csh_fair.py`. Each task
    receives the metadata payload as JSON text, walks it with `check_route`,
    decides "success" or "failed", and hands that to `incoperate_results`. The
    HTTP request that reports the status is left out. */
module CshFair {
  import opened Results
  import opened Errors
  import opened Strings
  import opened Json
  import opened Tasks
  import Route
  import Doi

  const SharingPlanRoute: seq<string> :=
    ["resource", "study_design", "study_data_sharing_plan", "study_data_sharing_plan_description"]

  const PlanAnswer: string := "Yes, there is a plan to make data available"

  /** `incoperate_results`: read the task's ids, convert the result to a
      `TaskStatus`, and in test mode return it; otherwise the status would be
      sent to the backend and nothing is returned. */
  function IncorporateResults(taskDict: map<string, Json>, result: string, test: bool)
    : (r: Result<Option<TaskStatus>, PyError>)
    ensures TaskDictIds(taskDict).Err? ==> r == Err(TaskDictIds(taskDict).error)
    ensures TaskDictIds(taskDict).Ok? && ParseStatus(result).None? ==> r == Err(ValueError(result))
    ensures r.Ok? ==> (r.value.Some? <==> test)
    ensures r.Ok? && test ==> StatusValue(r.value.value) == result
    ensures TaskDictIds(taskDict).Ok? && ParseStatus(result).Some? ==>
              r == Ok(if test then ParseStatus(result) else None)
  {
    var _ :- TaskDictIds(taskDict);
    var status := ParseStatus(result);
    if status.None? then Err(ValueError(result))
    else if test then Ok(status)
    else Ok(None)
  }

  /** The decision of `csh_f1_2_globally_unique_identifier`: a DOI or a `DRKS`
      identifier succeeds. `re.match` on anything but a string raises
      `TypeError`, and so does a missing route, whose `False` reaches it. */
  function IdentifierDecision(identifier: Json): (r: Result<string, PyError>)
    ensures r.Ok? <==> identifier.Str?
    ensures r.Err? ==> r.error == TypeError
    ensures r.Ok? ==> r.value == "success" || r.value == "failed"
  {
    match identifier
    case Str(s) =>
      if Doi.IsDoi(s) then Ok("success")
      else if StartsWith(s, "DRKS") then Ok("success")
      else Ok("failed")
    case _ => Err(TypeError)
  }

  /** The identifier rule read against the DOI pattern itself. */
  lemma IdentifierDecisionMeaning(s: string)
    ensures IdentifierDecision(Str(s)) == Ok("success") <==> Doi.MatchesDoiPattern(s) || StartsWith(s, "DRKS")
    ensures IdentifierDecision(Str(s)) == Ok("failed") <==> !Doi.MatchesDoiPattern(s) && !StartsWith(s, "DRKS")
  {
    Doi.IsDoiMatchesPattern(s);
  }

  /** `csh_f1_2_globally_unique_identifier(task_dict, data, test)`. The task
      does not return the value of `incoperate_results`, so it returns `None`
      whenever it does not raise. */
  function GloballyUniqueIdentifier(
    taskDict: map<string, Json>, data: string, parse: string -> Option<Json>, test: bool)
    : (r: Result<Option<TaskStatus>, PyError>)
    ensures r.Ok? ==> r.value == None
    ensures r.Ok? <==> && Route.CheckRouteText(data, Route.IdentifierRoute, parse).Ok?
                       && Route.CheckRouteText(data, Route.IdentifierRoute, parse).value.Str?
                       && TaskDictIds(taskDict).Ok?
    ensures Route.CheckRouteText(data, Route.IdentifierRoute, parse).Err? ==>
              r == Err(Route.CheckRouteText(data, Route.IdentifierRoute, parse).error)
    ensures Route.CheckRouteText(data, Route.IdentifierRoute, parse).Ok?
            && !Route.CheckRouteText(data, Route.IdentifierRoute, parse).value.Str? ==>
              r == Err(TypeError)
    ensures Route.CheckRouteText(data, Route.IdentifierRoute, parse).Ok?
            && Route.CheckRouteText(data, Route.IdentifierRoute, parse).value.Str?
            && TaskDictIds(taskDict).Err? ==>
              r == Err(TaskDictIds(taskDict).error)
  {
    var identifier :- Route.CheckRouteText(data, Route.IdentifierRoute, parse);
    var result :- IdentifierDecision(identifier);
    var _ :- IncorporateResults(taskDict, result, test);
    Ok(None)
  }

  /** The decision of `csh_a1_contains_access_information`: only the exact
      answer succeeds; a missing route gives `False`, which fails. */
  function AccessDecision(plan: Json): (r: string)
    ensures r == "success" || r == "failed"
    ensures r == "success" <==> plan == Str(PlanAnswer)
  {
    if plan == Str(PlanAnswer) then "success" else "failed"
  }

  /** A payload whose sharing plan is missing at some key fails the access rule. */
  lemma MissingPlanFails(document: Json, i: nat)
    requires i < |SharingPlanRoute|
    requires Route.Resolve(document, SharingPlanRoute[..i]).Some?
    requires Route.Resolve(document, SharingPlanRoute[..i]).value.Object?
    requires SharingPlanRoute[i] !in Route.Resolve(document, SharingPlanRoute[..i]).value.fields
    ensures Route.CheckRoute(document, SharingPlanRoute) == Ok(Bool(false))
    ensures AccessDecision(Route.CheckRoute(document, SharingPlanRoute).value) == "failed"
  {
    Route.CheckRouteMissing(document, SharingPlanRoute, i);
  }

  /** `csh_a1_contains_access_information(task_dict, data, test)`; like the
      identifier task it returns `None` whenever it does not raise. */
  function ContainsAccessInformation(
    taskDict: map<string, Json>, data: string, parse: string -> Option<Json>, test: bool)
    : (r: Result<Option<TaskStatus>, PyError>)
    ensures r.Ok? ==> r.value == None
    ensures r.Ok? <==> Route.CheckRouteText(data, SharingPlanRoute, parse).Ok? && TaskDictIds(taskDict).Ok?
    ensures Route.CheckRouteText(data, SharingPlanRoute, parse).Err? ==>
              r == Err(Route.CheckRouteText(data, SharingPlanRoute, parse).error)
    ensures Route.CheckRouteText(data, SharingPlanRoute, parse).Ok? && TaskDictIds(taskDict).Err? ==>
              r == Err(TaskDictIds(taskDict).error)
  {
    var plan :- Route.CheckRouteText(data, SharingPlanRoute, parse);
    var _ :- IncorporateResults(taskDict, AccessDecision(plan), test);
    Ok(None)
  }
}

=== FILE: doi.dfy ===
/** `is_doi` of `app/celery/automated_tasks/csh_fair.py`: whether a text matches
    `^10\.\d{4,9}/[-._;()/:A-Z0-9]+$` under Python's `re.match`, where `$`
    also matches just before one final newline. */
module Doi {
  import opened Strings

  predicate IsDigit(c: char) {
    '0' <= c <= '9'
  }

  /** The bracketed class of the suffix: no lower-case letters. */
  predicate InSuffixClass(c: char) {
    c in "-._;()/:" || 'A' <= c <= 'Z' || IsDigit(c)
  }

  /** How many digits follow position `i`. */
  function DigitRun(s: string, i: nat): (n: nat)
    requires i <= |s|
    ensures i + n <= |s|
    ensures forall k :: i <= k < i + n ==> IsDigit(s[k])
    ensures i + n < |s| ==> !IsDigit(s[i + n])
    decreases |s| - i
  {
    if i < |s| && IsDigit(s[i]) then 1 + DigitRun(s, i + 1) else 0
  }

  /** What `$` leaves to be matched: the text without one final newline. */
  function BeforeFinalNewline(t: string): string {
    if |t| > 0 && t[|t| - 1] == '\n' then t[..|t| - 1] else t
  }

  /** A left-to-right scan: "10.", the run of digits, which must number four to
      nine, a slash, and a non-empty suffix drawn from the class. */
  predicate IsDoi(s: string)
    ensures IsDoi(s) ==> StartsWith(s, "10.") && 9 <= |s|
  {
    && StartsWith(s, "10.")
    && var n := DigitRun(s, 3);
    && 4 <= n <= 9
    && 3 + n < |s|
    && s[3 + n] == '/'
    && var suffix := BeforeFinalNewline(s[4 + n..]);
    && |suffix| > 0
    && forall m :: 0 <= m < |suffix| ==> InSuffixClass(suffix[m])
  }

  /** The pattern read as a decomposition of `s`: digits on `[3, j)`, the slash at
      `j`, the suffix on `(j, k)`, and nothing after `k` but an optional newline. */
  predicate DoiSplit(s: string, j: int, k: int) {
    && |s| >= 3 && s[..3] == "10."
    && 7 <= j <= 12 && j + 1 < k <= |s|
    && (forall m :: 3 <= m < j ==> IsDigit(s[m]))
    && s[j] == '/'
    && (forall m :: j + 1 <= m < k ==> InSuffixClass(s[m]))
    && (k == |s| || (k == |s| - 1 && s[k] == '\n'))
  }

  ghost predicate MatchesDoiPattern(s: string) {
    exists j, k :: DoiSplit(s, j, k)
  }

  lemma {:induction false} DigitRunExact(s: string, i: nat, e: nat)
    requires i <= e <= |s|
    requires forall m :: i <= m < e ==> IsDigit(s[m])
    requires e == |s| || !IsDigit(s[e])
    ensures DigitRun(s, i) == e - i
    decreases e - i
  {
    if i < e {
      DigitRunExact(s, i + 1, e);
    }
  }

  /** Every text the scan accepts matches the pattern. */
  lemma IsDoiSound(s: string)
    requires IsDoi(s)
    ensures MatchesDoiPattern(s)
  {
    var n := DigitRun(s, 3);
    var j := 3 + n;
    assert 4 <= n <= 9 && j < |s| && s[j] == '/';
    assert forall m :: 3 <= m < j ==> IsDigit(s[m]);
    var k := SuffixEnd(s, j);
    assert s[..3] == "10.";
    assert DoiSplit(s, j, k);
  }

  /** Where the suffix the scan checked ends: before a final newline, or at the end. */
  lemma SuffixEnd(s: string, j: int) returns (k: int)
    requires 0 <= j < |s| - 1
    requires var suffix := BeforeFinalNewline(s[j + 1..]);
             && |suffix| > 0
             && forall m :: 0 <= m < |suffix| ==> InSuffixClass(suffix[m])
    ensures j + 1 < k <= |s|
    ensures forall m :: j + 1 <= m < k ==> InSuffixClass(s[m])
    ensures k == |s| || (k == |s| - 1 && s[k] == '\n')
  {
    var rest := s[j + 1..];
    k := if |rest| > 0 && rest[|rest| - 1] == '\n' then |s| - 1 else |s|;
    var suffix := BeforeFinalNewline(rest);
    assert suffix == s[j + 1..k];
    forall m | j + 1 <= m < k
      ensures InSuffixClass(s[m])
    {
      assert s[m] == suffix[m - j - 1];
    }
  }

  /** Every text the pattern matches, split at `j` and `k`, is accepted by the scan. */
  lemma IsDoiComplete(s: string, j: int, k: int)
    requires DoiSplit(s, j, k)
    ensures IsDoi(s)
  {
    DigitRunExact(s, 3, j);
    SuffixInClass(s, j, k);
  }

  /** The part of a split after the slash is what the scan checks against the class. */
  lemma SuffixInClass(s: string, j: int, k: int)
    requires DoiSplit(s, j, k)
    ensures var suffix := BeforeFinalNewline(s[j + 1..]);
            && |suffix| > 0
            && forall m :: 0 <= m < |suffix| ==> InSuffixClass(suffix[m])
  {
    if k == |s| {
      assert InSuffixClass(s[k - 1]);
    }
    var suffix := BeforeFinalNewline(s[j + 1..]);
    assert suffix == s[j + 1..k];
    forall m | 0 <= m < |suffix|
      ensures InSuffixClass(suffix[m])
    {
      assert suffix[m] == s[j + 1 + m];
    }
  }

  /** The scan accepts exactly the texts the pattern matches. */
  lemma IsDoiMatchesPattern(s: string)
    ensures IsDoi(s) <==> MatchesDoiPattern(s)
  {
    if IsDoi(s) {
      IsDoiSound(s);
    }
    if MatchesDoiPattern(s) {
      var j, k :| DoiSplit(s, j, k);
      IsDoiComplete(s, j, k);
    }
  }

  /** No text with a lower-case letter is a DOI, read either way: neither the
      fixed parts nor the suffix class admit one. */
  lemma LowercaseNeverDoi(s: string, i: nat)
    requires i < |s| && 'a' <= s[i] <= 'z'
    ensures !MatchesDoiPattern(s)
    ensures !IsDoi(s)
  {
    IsDoiMatchesPattern(s);
  }

  /** Texts at the boundaries of the pattern that it accepts: four digits,
      and a final newline after the suffix. */
  lemma DoiAccepted()
    ensures IsDoi("10.1234/ABC")
    ensures IsDoi("10.1234/ABC\n")
  {
    AcceptedSplit("10.1234/ABC");
    AcceptedSplit("10.1234/ABC\n");
  }

  lemma AcceptedSplit(s: string)
    requires s == "10.1234/ABC" || s == "10.1234/ABC\n"
    ensures IsDoi(s)
  {
    assert s[..3] == "10.";
    assert forall m :: 3 <= m < 7 ==> IsDigit(s[m]);
    assert forall m :: 8 <= m < 11 ==> InSuffixClass(s[m]);
    IsDoiComplete(s, 7, 11);
  }

  /** Texts at the boundaries of the pattern that it rejects: three or ten
      digits, and an empty suffix. */
  lemma DoiRejected()
    ensures !IsDoi("10.123/ABC")
    ensures !IsDoi("10.1234567890/ABC")
    ensures !IsDoi("10.1234/")
  {
    DigitRunExact("10.123/ABC", 3, 6);
    DigitRunExact("10.1234567890/ABC", 3, 13);
  }
}

=== FILE: errors.dfy ===
/** The Python exceptions the modelled code can raise. */
module Errors {

  /** Why `CombineArchive.__init__` raised `CombineArchiveException`. */
  datatype ArchiveProblem =
    | NoMasterFile
    | CopasiUnsupported
    | UnknownFormat(format: string)

  datatype PyError =
    | KeyError(key: string)
    | AttributeError(attribute: string)
    | TypeError
    | ValueError(text: string)
    | ZeroDivisionError
    | UnboundLocalError(name: string)
    | JsonDecodeError
    | IOError(path: string)
    | CombineArchiveException(problem: ArchiveProblem)
    | ValidationError(field: string)
}

=== FILE: json.dfy ===
/** The JSON-like values the evaluators receive: what `json.loads` produces
    and what `.dict()` of the parsed model returns. */
module Json {

  datatype Json =
    | Null
    | Bool(b: bool)
    | Num(n: real)
    | Str(s: string)
    | Array(items: seq<Json>)
    | Object(fields: map<string, Json>)

  /** Python's `bool(v)`: `None`, `False`, zero and empty containers are false. */
  predicate Truthy(v: Json) {
    match v
    case Null => false
    case Bool(b) => b
    case Num(n) => n != 0.0
    case Str(s) => |s| > 0
    case Array(items) => |items| > 0
    case Object(fields) => |fields| > 0
  }
}

=== FILE: metadata.dfy ===
/** `ModelMetadata` of `app/parsers/abstract.py`: eight sets of metadata items
    and a creation date of its own, plus a list of attached ("internal")
    metadata objects whose items the public properties merge in. Items are kept
    as the strings `export_set` turns them into. */
module Metadata {

  datatype ModelMetadata = ModelMetadata(
    creators: set<string>,
    creationDate: string,
    modificationDates: set<string>,
    altIds: set<string>,
    versions: set<string>,
    properties: set<string>,
    taxa: set<string>,
    cellLocations: set<string>,
    citations: set<string>,
    attached: seq<ModelMetadata>)

  /** The eight set-valued properties. */
  datatype Field = Creators | ModificationDates | AltIds | Versions | Properties | Taxa | CellLocations | Citations

  /** The object's own set behind a property (the underscore attribute). */
  function Own(m: ModelMetadata, f: Field): set<string> {
    match f
    case Creators => m.creators
    case ModificationDates => m.modificationDates
    case AltIds => m.altIds
    case Versions => m.versions
    case Properties => m.properties
    case Taxa => m.taxa
    case CellLocations => m.cellLocations
    case Citations => m.citations
  }

  /** `ModelMetadata()`: every set empty, no creation date, nothing attached. */
  function NewMetadata(): (m: ModelMetadata)
    ensures forall f :: Own(m, f) == {}
    ensures m.creationDate == "" && |m.attached| == 0
  {
    ModelMetadata({}, "", {}, {}, {}, {}, {}, {}, {}, [])
  }

  /** The own sets of a list of objects, unioned. */
  function UnionOwn(ms: seq<ModelMetadata>, f: Field): (r: set<string>)
    ensures forall x :: x in r <==> exists i :: 0 <= i < |ms| && x in Own(ms[i], f)
  {
    if |ms| == 0 then {}
    else
      var rest := UnionOwn(ms[1..], f);
      assert forall i :: 1 <= i < |ms| ==> ms[i] == ms[1..][i - 1];
      Own(ms[0], f) + rest
  }

  /** A set-valued property (`creators`, `modification_dates`, ...): a copy of
      the own set updated with the own set of every attached object. */
  function Property(m: ModelMetadata, f: Field): (r: set<string>)
    ensures forall x :: x in r <==>
              x in Own(m, f) || exists i :: 0 <= i < |m.attached| && x in Own(m.attached[i], f)
  {
    Own(m, f) + UnionOwn(m.attached, f)
  }

  /** The `creation_date` property: the own date when there is one, otherwise the
      first non-empty `creation_date` property among the attached objects, in
      attach order, otherwise "". */
  function CreationDate(m: ModelMetadata): (r: string)
    ensures m.creationDate != "" ==> r == m.creationDate
    decreases m, 1
  {
    if m.creationDate != "" then m.creationDate else FirstAttachedDate(m, 0)
  }

  /** The loop over the attached objects, from position `i` on. */
  function FirstAttachedDate(m: ModelMetadata, i: nat): (r: string)
    requires i <= |m.attached|
    ensures r == "" <==> forall k :: i <= k < |m.attached| ==> CreationDate(m.attached[k]) == ""
    decreases m, 0, |m.attached| - i
  {
    if i == |m.attached| then ""
    else
      assert m.attached[i] in m.attached;
      var d := CreationDate(m.attached[i]);
      if d != "" then d else FirstAttachedDate(m, i + 1)
  }

  /** A non-empty answer is the date of the first attached object, from `i` on,
      whose date is non-empty. */
  lemma FirstAttachedDateIsFirst(m: ModelMetadata, i: nat)
    requires i <= |m.attached|
    requires FirstAttachedDate(m, i) != ""
    ensures exists j :: i <= j < |m.attached| && FirstAttachedDate(m, i) == CreationDate(m.attached[j])
                        && forall k :: i <= k < j ==> CreationDate(m.attached[k]) == ""
  {
    var j := FirstAttachedDatePosition(m, i);
  }

  lemma {:induction false} FirstAttachedDatePosition(m: ModelMetadata, i: nat) returns (j: nat)
    requires i <= |m.attached|
    requires FirstAttachedDate(m, i) != ""
    ensures i <= j < |m.attached|
    ensures FirstAttachedDate(m, i) == CreationDate(m.attached[j])
    ensures forall k :: i <= k < j ==> CreationDate(m.attached[k]) == ""
    decreases |m.attached| - i
  {
    var d := CreationDate(m.attached[i]);
    if d == "" {
      assert FirstAttachedDate(m, i) == FirstAttachedDate(m, i + 1);
      j := FirstAttachedDatePosition(m, i + 1);
      forall k | i <= k < j
        ensures CreationDate(m.attached[k]) == ""
      {
        if k == i {
          assert CreationDate(m.attached[k]) == d;
        }
      }
    } else {
      assert FirstAttachedDate(m, i) == d;
      j := i;
    }
  }

  /** An independent description of "some creation date is reachable": the
      object's own, or one reachable from an attached object. */
  predicate HasDate(m: ModelMetadata)
    decreases m
  {
    m.creationDate != "" || exists i :: 0 <= i < |m.attached| && HasDate(m.attached[i])
  }

  /** The creation date is "" exactly when no date is reachable: the lookup
      reads attached objects through their property, so it is transitive. */
  lemma {:induction false} CreationDateFound(m: ModelMetadata)
    ensures CreationDate(m) != "" <==> HasDate(m)
    decreases m
  {
    forall i | 0 <= i < |m.attached|
      ensures CreationDate(m.attached[i]) != "" <==> HasDate(m.attached[i])
    {
      assert m.attached[i] in m.attached;
      CreationDateFound(m.attached[i]);
    }
  }

  /** `add_internal_metadata`: appends to the attached list and nothing else. */
  function AddInternal(m: ModelMetadata, other: ModelMetadata): (r: ModelMetadata)
    ensures r.attached == m.attached + [other]
    ensures r.(attached := m.attached) == m
  {
    m.(attached := m.attached + [other])
  }

  /** Attaching an object adds its own items, and only those, to every property. */
  lemma {:induction false} AddInternalProperty(m: ModelMetadata, other: ModelMetadata, f: Field)
    ensures Property(AddInternal(m, other), f) == Property(m, f) + Own(other, f)
  {
    var r := AddInternal(m, other);
    forall x
      ensures x in Property(r, f) <==> x in Property(m, f) + Own(other, f)
    {
      if x in Own(other, f) {
        assert r.attached[|m.attached|] == other;
      }
      if exists i :: 0 <= i < |r.attached| && x in Own(r.attached[i], f) {
        var i :| 0 <= i < |r.attached| && x in Own(r.attached[i], f);
        if i < |m.attached| {
          assert r.attached[i] == m.attached[i];
        }
      }
      if exists i :: 0 <= i < |m.attached| && x in Own(m.attached[i], f) {
        var i :| 0 <= i < |m.attached| && x in Own(m.attached[i], f);
        assert r.attached[i] == m.attached[i];
      }
    }
  }

  /** Attaching an object changes the creation date only when there was none,
      and then to the attached object's own creation date property. */
  lemma AddInternalCreationDate(m: ModelMetadata, other: ModelMetadata)
    ensures CreationDate(m) != "" ==> CreationDate(AddInternal(m, other)) == CreationDate(m)
    ensures CreationDate(m) == "" ==> CreationDate(AddInternal(m, other)) == CreationDate(other)
  {
    var r := AddInternal(m, other);
    if m.creationDate == "" {
      FirstAttachedDateAppend(m, other, 0);
    }
  }

  lemma {:induction false} FirstAttachedDateAppend(m: ModelMetadata, other: ModelMetadata, i: nat)
    requires i <= |m.attached|
    ensures FirstAttachedDate(AddInternal(m, other), i)
         == if FirstAttachedDate(m, i) != "" then FirstAttachedDate(m, i) else CreationDate(other)
    decreases |m.attached| - i
  {
    var r := AddInternal(m, other);
    if i == |m.attached| {
      assert r.attached[i] == other;
      assert r.attached[i] in r.attached;
    } else {
      assert r.attached[i] == m.attached[i];
      assert r.attached[i] in r.attached;
      assert m.attached[i] in m.attached;
      FirstAttachedDateAppend(m, other, i + 1);
    }
  }

  /** The union is one level deep: what is attached to an attached object does
      not reach the outer object's properties. */
  lemma OneLevelOnly(m: ModelMetadata, a: ModelMetadata, b: ModelMetadata, f: Field)
    requires |m.attached| == 0
    ensures Property(AddInternal(m, AddInternal(a, b)), f) == Own(m, f) + Own(a, f)
  {
    AddInternalProperty(m, AddInternal(a, b), f);
  }

  /** The date lookup, by contrast, reaches through an attached object. */
  lemma DateLookupIsTransitive(m: ModelMetadata, a: ModelMetadata, b: ModelMetadata)
    requires m.creationDate == "" && |m.attached| == 0
    requires a.creationDate == "" && |a.attached| == 0
    ensures CreationDate(AddInternal(m, AddInternal(a, b))) == CreationDate(b)
  {
    AddInternalCreationDate(a, b);
    AddInternalCreationDate(m, AddInternal(a, b));
  }

  /** `export_set`: the items as a list, each once, in some order. */
  method ExportSet(items: set<string>) returns (r: seq<string>)
    ensures forall x :: x in r <==> x in items
    ensures forall i, j :: 0 <= i < j < |r| ==> r[i] != r[j]
    ensures |r| == |items|
  {
    r := [];
    var rest := items;
    while rest != {}
      invariant rest <= items
      invariant forall x :: x in r <==> x in items && x !in rest
      invariant forall i, j :: 0 <= i < j < |r| ==> r[i] != r[j]
      invariant |r| + |rest| == |items|
      decreases |rest|
    {
      var x :| x in rest;
      r := r + [x];
      rest := rest - {x};
    }
  }
}

=== FILE: model_checks.dfy ===
/** The model-file indicators: the celery tasks of
    `app/celery/automated_tasks/f4_model_metadata_harvestable_task.py`,
    `f1_model_persistent_identifier_task.py` and `tasks.py`, and the
    `F1ModelPersistentIdentifier` evaluator. `data` is the dictionary form of a
    `CombineArchive`; the HTTP request that reports the status is left out. */
module ModelChecks {
  import opened Results
  import opened Errors
  import opened Json
  import opened Tasks
  import Archive
  import Metadata

  /** `dict_non_empty`: some value of the metadata dictionary is truthy. */
  predicate DictNonEmpty(metadata: map<string, Json>)
    ensures DictNonEmpty(metadata) <==> exists v | v in metadata.Values :: Truthy(v)
    ensures DictNonEmpty(metadata) ==> metadata != map[]
  {
    exists k | k in metadata :: Truthy(metadata[k])
  }

  /** A dictionary whose every value is empty has no metadata, whatever its keys. */
  lemma AllEmptyValues(metadata: map<string, Json>)
    requires forall k | k in metadata :: metadata[k] in {Null, Bool(false), Str(""), Array([]), Object(map[])}
    ensures !DictNonEmpty(metadata)
  {
  }

  /** One truthy value is enough, wherever it is added. */
  lemma OneValueSuffices(metadata: map<string, Json>, k: string, v: Json)
    requires Truthy(v)
    ensures DictNonEmpty(metadata[k := v])
  {
    assert Truthy(metadata[k := v][k]);
  }

  /** `dict_non_empty` reads only the values: renaming the keys changes nothing. */
  lemma ValuesOnly(m1: map<string, Json>, m2: map<string, Json>)
    requires m1.Values == m2.Values
    ensures DictNonEmpty(m1) <==> DictNonEmpty(m2)
  {
    if DictNonEmpty(m1) {
      var k :| k in m1 && Truthy(m1[k]);
      assert m1[k] in m2.Values;
      var k2 :| k2 in m2 && m2[k2] == m1[k];
    }
    if DictNonEmpty(m2) {
      var k :| k in m2 && Truthy(m2[k]);
      assert m2[k] in m1.Values;
      var k1 :| k1 in m1 && m1[k1] == m2[k];
    }
  }

  /** The decision of `f4_model_metadata_harvestable`: a missing key raises
      `KeyError`, a value that is not a dictionary has no `values` method. */
  function HarvestableDecision(data: map<string, Json>): (r: Result<TaskStatus, PyError>)
    ensures "main_model_metadata" !in data ==> r == Err(KeyError("main_model_metadata"))
    ensures "main_model_metadata" in data && !data["main_model_metadata"].Object? ==> r == Err(AttributeError("values"))
    ensures r.Ok? ==> r.value == TaskStatus.Success || r.value == TaskStatus.Failed
    ensures r == Ok(TaskStatus.Success) <==>
      "main_model_metadata" in data && data["main_model_metadata"].Object?
      && DictNonEmpty(data["main_model_metadata"].fields)
  {
    if "main_model_metadata" !in data then Err(KeyError("main_model_metadata"))
    else match data["main_model_metadata"]
      case Object(fields) =>
        if DictNonEmpty(fields) then Ok(TaskStatus.Success) else Ok(TaskStatus.Failed)
      case _ => Err(AttributeError("values"))
  }

  /** `f4_model_metadata_harvestable(task_dict, data, test)`: the task's ids
      are read first; in test mode the status is returned. */
  function MetadataHarvestable(taskDict: map<string, Json>, data: map<string, Json>, test: bool)
    : (r: Result<Option<TaskStatus>, PyError>)
    ensures TaskDictIds(taskDict).Err? ==> r == Err(TaskDictIds(taskDict).error)
    ensures TaskDictIds(taskDict).Ok? ==> (r.Ok? <==> HarvestableDecision(data).Ok?)
    ensures TaskDictIds(taskDict).Ok? && HarvestableDecision(data).Err? ==>
              r == Err(HarvestableDecision(data).error)
    ensures r.Ok? ==> (r.value.Some? <==> test)
    ensures r.Ok? && test ==> r.value.value == HarvestableDecision(data).value
  {
    var _ :- TaskDictIds(taskDict);
    var status :- HarvestableDecision(data);
    if test then Ok(Some(status)) else Ok(None)
  }

  /** The metadata of the `case_01` archive: every field the dictionary form
      lists is empty. */
  function EmptyMetadataDict(): map<string, Json> {
    map[
      "taxa" := Array([]), "properties" := Array([]), "alt_ids" := Array([]),
      "versions" := Array([]), "creators" := Array([]), "creation_date" := Str(""),
      "modification_dates" := Array([]), "cell_locations" := Array([]), "citations" := Array([])]
  }

  /** An archive whose metadata fields are all empty fails the harvestability
      check, and a task of a session with ids reports `failed`. */
  lemma EmptyMetadataFails(taskDict: map<string, Json>, data: map<string, Json>)
    requires TaskDictIds(taskDict).Ok?
    requires "main_model_metadata" in data && data["main_model_metadata"] == Object(EmptyMetadataDict())
    ensures MetadataHarvestable(taskDict, data, true) == Ok(Some(TaskStatus.Failed))
  {
    AllEmptyValues(EmptyMetadataDict());
  }

  /** The decision of `f1_model_persistent_identifier`: the model object's
      `id` must be present and truthy; `get` needs a dictionary. */
  function PersistentIdentifierDecision(data: map<string, Json>): (r: Result<TaskStatus, PyError>)
    ensures "main_model_object" !in data ==> r == Err(KeyError("main_model_object"))
    ensures "main_model_object" in data && !data["main_model_object"].Object? ==> r == Err(AttributeError("get"))
    ensures r.Ok? ==> r.value == TaskStatus.Success || r.value == TaskStatus.Failed
    ensures r == Ok(TaskStatus.Success) <==>
      "main_model_object" in data && data["main_model_object"].Object?
      && "id" in data["main_model_object"].fields && Truthy(data["main_model_object"].fields["id"])
  {
    if "main_model_object" !in data then Err(KeyError("main_model_object"))
    else match data["main_model_object"]
      case Object(fields) =>
        if "id" in fields && Truthy(fields["id"]) then Ok(TaskStatus.Success) else Ok(TaskStatus.Failed)
      case _ => Err(AttributeError("get"))
  }

  /** `f1_model_persistent_identifier(task_dict, data)` as written: it has no
      `test` parameter and returns nothing, so a caller never sees the status. */
  function PersistentIdentifierTask(taskDict: map<string, Json>, data: map<string, Json>)
    : (r: Result<Option<TaskStatus>, PyError>)
    ensures TaskDictIds(taskDict).Err? ==> r == Err(TaskDictIds(taskDict).error)
    ensures TaskDictIds(taskDict).Ok? ==> (r.Ok? <==> PersistentIdentifierDecision(data).Ok?)
    ensures TaskDictIds(taskDict).Ok? && PersistentIdentifierDecision(data).Err? ==>
              r == Err(PersistentIdentifierDecision(data).error)
    ensures r.Ok? ==> r.value == None
  {
    var _ :- TaskDictIds(taskDict);
    var _ :- PersistentIdentifierDecision(data);
    Ok(None)
  }

  /** Even on a model with an identifier, the task as written yields no status. */
  lemma PersistentIdentifierTaskSilent(taskDict: map<string, Json>)
    requires TaskDictIds(taskDict).Ok?
    ensures PersistentIdentifierDecision(map["main_model_object" := Object(map["id" := Str("m")])])
            == Ok(TaskStatus.Success)
    ensures PersistentIdentifierTask(taskDict, map["main_model_object" := Object(map["id" := Str("m")])])
            == Ok(None)
  {
  }

  /** The task with the `test` flag its callers pass, shaped like
      `f4_model_metadata_harvestable`: in test mode the status is returned. */
  function PersistentIdentifierTaskWithTest(taskDict: map<string, Json>, data: map<string, Json>, test: bool)
    : (r: Result<Option<TaskStatus>, PyError>)
    ensures TaskDictIds(taskDict).Err? ==> r == Err(TaskDictIds(taskDict).error)
    ensures TaskDictIds(taskDict).Ok? ==> (r.Ok? <==> PersistentIdentifierDecision(data).Ok?)
    ensures TaskDictIds(taskDict).Ok? && PersistentIdentifierDecision(data).Err? ==>
              r == Err(PersistentIdentifierDecision(data).error)
    ensures r.Ok? ==> (r.value.Some? <==> test)
    ensures r.Ok? && test ==> r.value.value == PersistentIdentifierDecision(data).value
  {
    var _ :- TaskDictIds(taskDict);
    var status :- PersistentIdentifierDecision(data);
    if test then Ok(Some(status)) else Ok(None)
  }

  /** Both tasks decide alike; only the corrected one reports the decision. */
  lemma WithTestAgrees(taskDict: map<string, Json>, data: map<string, Json>)
    ensures PersistentIdentifierTaskWithTest(taskDict, data, false) == PersistentIdentifierTask(taskDict, data)
    ensures PersistentIdentifierTask(taskDict, data).Ok? ==>
      PersistentIdentifierTaskWithTest(taskDict, data, true) == Ok(Some(PersistentIdentifierDecision(data).value))
  {
  }

  /** `F1ModelPersistentIdentifier.evaluate`: the key `id` decides. */
  function Evaluate(data: map<string, Json>): (r: TaskStatus)
    ensures r == TaskStatus.Success || r == TaskStatus.Failed
    ensures r == TaskStatus.Success <==> "id" in data
  {
    if "id" in data then TaskStatus.Success else TaskStatus.Failed
  }

  /** `f1_model_persistent_identifier` of `tasks.py`: the same rule as
      `Evaluate`, answered as the status's string value. */
  function TasksPersistentIdentifier(taskDict: map<string, Json>, data: map<string, Json>)
    : (r: Result<string, PyError>)
    ensures r.Ok? <==> TaskDictIds(taskDict).Ok?
    ensures r.Err? ==> r == Err(TaskDictIds(taskDict).error)
    ensures r.Ok? ==> r.value == StatusValue(Evaluate(data))
  {
    var _ :- TaskDictIds(taskDict);
    if "id" in data then Ok("success") else Ok("failed")
  }

  /** `Evaluate` depends on the key set alone, not on the values. */
  lemma EvaluateKeysOnly(d1: map<string, Json>, d2: map<string, Json>)
    requires d1.Keys == d2.Keys
    ensures Evaluate(d1) == Evaluate(d2)
  {
  }

  /** A truthy identifier is a present one, so the celery rule is the stricter:
      where it succeeds on the model object, the evaluator does too. */
  lemma TruthyImpliesPresent(data: map<string, Json>)
    requires PersistentIdentifierDecision(data) == Ok(TaskStatus.Success)
    ensures Evaluate(data["main_model_object"].fields) == TaskStatus.Success
  {
  }

  /** The two rules differ on an empty identifier. */
  lemma EmptyIdentifierDisagrees()
    ensures Evaluate(map["id" := Str("")]) == TaskStatus.Success
    ensures PersistentIdentifierDecision(map["main_model_object" := Object(map["id" := Str("")])])
            == Ok(TaskStatus.Failed)
  {
  }

  /** On the dictionary form of a loaded archive neither model-file rule
      raises: each reads only its own part of the archive. */
  lemma ArchiveEvaluation(
    a: Archive.CombineArchive,
    objectDict: Archive.ModelObject -> map<string, Json>,
    metadataDict: Metadata.ModelMetadata -> map<string, Json>)
    ensures HarvestableDecision(Archive.ArchiveDict(a, objectDict, metadataDict))
            == Ok(if DictNonEmpty(metadataDict(a.mainModelMetadata)) then TaskStatus.Success else TaskStatus.Failed)
    ensures PersistentIdentifierDecision(Archive.ArchiveDict(a, objectDict, metadataDict))
            == Ok(if "id" in objectDict(a.mainModelObject) && Truthy(objectDict(a.mainModelObject)["id"])
                  then TaskStatus.Success else TaskStatus.Failed)
  {
  }
}

=== FILE: results.dfy ===
/** Optional values and success-or-error results, used wherever the Python code
    returns `None` or raises. Both work with Dafny's `:-` operator. */
module Results {

  datatype Option<+T> = None | Some(value: T)

  datatype Result<+T, +E> = Ok(value: T) | Err(error: E) {

    predicate IsFailure() {
      Err?
    }

    function PropagateFailure<U>(): Result<U, E>
      requires Err?
    {
      Err(error)
    }

    function Extract(): T
      requires Ok?
    {
      value
    }
  }
}

=== FILE: route.dfy ===
/** `check_route` of `app/models/csh.py` and its parse-then-walk twin in
    `app/celery/automated_tasks/csh_helpers.py`: follow a list of keys
    through a JSON document, answering `False` at the first missing key. */
module Route {
  import opened Results
  import opened Errors
  import opened Strings
  import opened Json

  /** The route `evaluate` and the identifier rule look up. */
  const IdentifierRoute: seq<string> := ["resource", "resource_identifier"]

  /** The value at the nested path when every key names a field of an object
      on the way; the reference the Python loop is measured against. */
  function Resolve(data: Json, route: seq<string>): Option<Json>
    decreases |route|
  {
    if |route| == 0 then Some(data)
    else match data
      case Object(fields) =>
        if route[0] in fields then Resolve(fields[route[0]], route[1..]) else None
      case _ => None
  }

  /** One turn of the loop: `key in pos` and then `pos[key]`. `Some` carries the
      next position, `None` means the membership test failed. On a list the test
      is element membership and on a string it is a substring test; when such a
      test succeeds, indexing with a string key raises `TypeError`. Other scalars
      do not support `in` at all. */
  function Step(pos: Json, key: string): (r: Result<Option<Json>, PyError>)
    ensures r.Ok? ==> r.value == Resolve(pos, [key])
    ensures r.Err? ==> r.error == TypeError
    ensures pos.Object? ==> r.Ok?
    ensures pos.Array? ==> (r.Err? <==> Str(key) in pos.items)
    ensures pos.Str? ==> (r.Err? <==> Contains(pos.s, key))
    ensures pos.Null? || pos.Bool? || pos.Num? ==> r.Err?
  {
    match pos
    case Object(fields) => if key in fields then Ok(Some(fields[key])) else Ok(None)
    case Array(items) => if Str(key) in items then Err(TypeError) else Ok(None)
    case Str(s) => if Contains(s, key) then Err(TypeError) else Ok(None)
    case _ => Err(TypeError)
  }

  /** `check_route(json_data, route_keys)` of `app/models/csh.py`. A result other
      than `False` is the value at the path; `False` is either the value there or
      the sign of a missing key. */
  function CheckRoute(data: Json, route: seq<string>): (r: Result<Json, PyError>)
    ensures |route| == 0 ==> r == Ok(data)
    ensures r.Ok? ==> r.value == Bool(false) || Resolve(data, route) == Some(r.value)
    decreases |route|
  {
    if |route| == 0 then Ok(data)
    else match Step(data, route[0])
      case Err(e) => Err(e)
      case Ok(None) => Ok(Bool(false))
      case Ok(Some(next)) => CheckRoute(next, route[1..])
  }

  /** When every key is present the walk returns the nested value. */
  lemma {:induction false} CheckRouteFound(data: Json, route: seq<string>)
    requires Resolve(data, route).Some?
    ensures CheckRoute(data, route) == Ok(Resolve(data, route).value)
    decreases |route|
  {
    if |route| > 0 {
      CheckRouteFound(data.fields[route[0]], route[1..]);
    }
  }

  /** At the first missing key the walk answers `False`. The premises speak only
      of `route[..i + 1]`, so the keys after the missing one are never consulted. */
  lemma {:induction false} CheckRouteMissing(data: Json, route: seq<string>, i: nat)
    requires i < |route|
    requires Resolve(data, route[..i]).Some?
    requires Resolve(data, route[..i]).value.Object?
    requires route[i] !in Resolve(data, route[..i]).value.fields
    ensures CheckRoute(data, route) == Ok(Bool(false))
    decreases i
  {
    if i > 0 {
      assert route[..i][0] == route[0];
      assert route[..i][1..] == route[1..][..i - 1];
      CheckRouteMissing(data.fields[route[0]], route[1..], i - 1);
    }
  }

  /** Walking `a + b` is walking `a` and then walking `b` from where `a` ended. */
  lemma {:induction false} CheckRouteCompose(data: Json, a: seq<string>, b: seq<string>)
    requires Resolve(data, a).Some?
    ensures CheckRoute(data, a + b) == CheckRoute(Resolve(data, a).value, b)
    decreases |a|
  {
    if |a| == 0 {
      assert a + b == b;
    } else {
      var next := data.fields[a[0]];
      assert (a + b)[0] == a[0];
      assert (a + b)[1..] == a[1..] + b;
      CheckRouteCompose(next, a[1..], b);
    }
  }

  /** A present `False` and a missing key give the same answer. */
  lemma FalseIsAmbiguous()
    ensures CheckRoute(Object(map["plan" := Bool(false)]), ["plan"])
         == CheckRoute(Object(map[]), ["plan"])
  {
  }

  /** `evaluate(json_data, schema_version)` of `app/models/csh.py`, returning the
      value it prints. Only schema version "3.1" binds `current_pos`. */
  function Evaluate(data: Json, schemaVersion: string): (r: Result<Json, PyError>)
    ensures schemaVersion != "3.1" <==> r == Err(UnboundLocalError("current_pos"))
    ensures Resolve(data, IdentifierRoute).Some? && schemaVersion == "3.1"
            ==> r == Ok(Resolve(data, IdentifierRoute).value)
  {
    if schemaVersion == "3.1" then
      var r := CheckRoute(data, IdentifierRoute);
      assert Resolve(data, IdentifierRoute).Some? ==> r == Ok(Resolve(data, IdentifierRoute).value) by {
        if Resolve(data, IdentifierRoute).Some? {
          CheckRouteFound(data, IdentifierRoute);
        }
      }
      r
    else Err(UnboundLocalError("current_pos"))
  }

  /** `check_route(metadata, route_keys)` of `csh_helpers.py`: the text is parsed
      first (`json.loads`, given here as `parse`, with `None` for malformed
      text) and the parsed document is walked. */
  function CheckRouteText(metadata: string, route: seq<string>, parse: string -> Option<Json>)
    : (r: Result<Json, PyError>)
    ensures parse(metadata).None? ==> r == Err(JsonDecodeError)
    ensures parse(metadata).Some? ==> r == CheckRoute(parse(metadata).value, route)
    ensures parse(metadata).Some? && |route| == 0 ==> r == Ok(parse(metadata).value)
  {
    match parse(metadata)
    case None => Err(JsonDecodeError)
    case Some(document) => CheckRoute(document, route)
  }
}

=== FILE: session.dfy ===
/** `app/models/session.py`: a session owns a dictionary of top-level tasks and
    three aggregate fields that `SessionHandler.run_statistics` fills in. The
    dictionary is kept as its sequence of (key, task) entries in insertion order. */
module Sessions {
  import opened Results
  import opened Errors
  import opened Tasks

  datatype SessionStatus = Queued | Preprocessing | Running | Postprocessing | Finished | Error

  datatype Session = Session(
    id: string,
    subject: string,
    tasks: seq<(string, Task)>,
    status: SessionStatus,
    scoreEssential: Option<real>,
    scoreAll: Option<real>,
    ratioNotApplicable: Option<real>)

  /** `Session(id=..., subject=...)` with every other field left to its default. */
  function NewSession(id: string, subject: string): (s: Session)
    ensures s.id == id && s.subject == subject
    ensures s.status == SessionStatus.Queued && |s.tasks| == 0
    ensures s.scoreEssential.None? && s.scoreAll.None? && s.ratioNotApplicable.None?
  {
    Session(id, subject, [], SessionStatus.Queued, None, None, None)
  }

  /** The dictionary's values, in iteration order. */
  function Values(d: seq<(string, Task)>): (r: seq<Task>)
    ensures |r| == |d|
    ensures forall i :: 0 <= i < |d| ==> r[i] == d[i].1
  {
    seq(|d|, i requires 0 <= i < |d| => d[i].1)
  }

  predicate Unresolved(t: Task) {
    t.status == TaskStatus.Queued || t.status == TaskStatus.Started
  }

  predicate Applicable(t: Task) {
    t.status != TaskStatus.NotApplicable
  }

  predicate EssentialApplicable(t: Task) {
    t.priority == Essential && Applicable(t)
  }

  predicate NotApplicable(t: Task) {
    t.status == TaskStatus.NotApplicable
  }

  /** `any(...)` over the tasks, in order. */
  function AnyUnresolved(ts: seq<Task>): (r: bool)
    ensures r <==> exists i :: 0 <= i < |ts| && Unresolved(ts[i])
  {
    if |ts| == 0 then false else Unresolved(ts[0]) || AnyUnresolved(ts[1..])
  }

  /** `SessionHandler.is_running`, reading the task values. */
  function IsRunning(s: Session): (r: bool)
    ensures r <==> exists i :: 0 <= i < |s.tasks| && Unresolved(s.tasks[i].1)
  {
    AnyUnresolved(Values(s.tasks))
  }

  /** `sum([p(t) for t in tasks])`: how many tasks satisfy `p`. */
  function Count(ts: seq<Task>, p: Task -> bool): (n: nat)
    ensures n <= |ts|
    ensures n == 0 <==> forall i :: 0 <= i < |ts| ==> !p(ts[i])
    ensures n == |ts| <==> forall i :: 0 <= i < |ts| ==> p(ts[i])
  {
    if |ts| == 0 then 0
    else (if p(ts[0]) then 1 else 0) + Count(ts[1..], p)
  }

  /** Every task that `p` selects has a score, so summing them raises no `TypeError`. */
  predicate ScoresPresent(ts: seq<Task>, p: Task -> bool) {
    forall i | 0 <= i < |ts| :: p(ts[i]) ==> ts[i].score.Some?
  }

  /** Every task that `p` selects has a score between 0 and 1. */
  predicate ScoresInUnit(ts: seq<Task>, p: Task -> bool) {
    forall i | 0 <= i < |ts| :: p(ts[i]) ==> ts[i].score.Some? && 0.0 <= ts[i].score.value <= 1.0
  }

  /** `sum([t.score for t in tasks if p(t)])`. */
  function SumScores(ts: seq<Task>, p: Task -> bool): (r: real)
    requires ScoresPresent(ts, p)
    ensures (forall i | 0 <= i < |ts| :: !p(ts[i])) ==> r == 0.0
  {
    if |ts| == 0 then 0.0
    else (if p(ts[0]) then ts[0].score.value else 0.0) + SumScores(ts[1..], p)
  }

  /** Python's `sum` adds from the left: the sum over a list is the sum over
      all but its last task plus that task's share. */
  lemma {:induction false} SumScoresLeftFold(ts: seq<Task>, p: Task -> bool)
    requires |ts| > 0 && ScoresPresent(ts, p)
    ensures SumScores(ts, p)
            == SumScores(ts[..|ts| - 1], p) + (if p(ts[|ts| - 1]) then ts[|ts| - 1].score.value else 0.0)
  {
    if |ts| > 1 {
      assert ts[1..][..|ts| - 2] == ts[..|ts| - 1][1..];
      SumScoresLeftFold(ts[1..], p);
    }
  }

  /** With scores in [0, 1] the sum lies between 0 and the count, reaches the
      count exactly when every selected score is 1, and is 0 exactly when every
      selected score is 0. */
  lemma {:induction false} SumBounds(ts: seq<Task>, p: Task -> bool)
    requires ScoresInUnit(ts, p)
    ensures 0.0 <= SumScores(ts, p) <= Count(ts, p) as real
    ensures SumScores(ts, p) == Count(ts, p) as real
            <==> forall i :: 0 <= i < |ts| && p(ts[i]) ==> ts[i].score == Some(1.0)
    ensures SumScores(ts, p) == 0.0
            <==> forall i :: 0 <= i < |ts| && p(ts[i]) ==> ts[i].score == Some(0.0)
  {
    if |ts| > 0 {
      SumBounds(ts[1..], p);
      assert forall i :: 1 <= i < |ts| ==> ts[i] == ts[1..][i - 1];
    }
  }

  /** Selecting more tasks never lowers the count. */
  lemma {:induction false} CountMonotone(ts: seq<Task>, p: Task -> bool, q: Task -> bool)
    requires forall i :: 0 <= i < |ts| && p(ts[i]) ==> q(ts[i])
    ensures Count(ts, p) <= Count(ts, q)
  {
    if |ts| > 0 {
      CountMonotone(ts[1..], p, q);
    }
  }

  /** Count and sum see a task only through `p` and its score. */
  lemma {:induction false} AggregatesLocal(ts: seq<Task>, us: seq<Task>, p: Task -> bool)
    requires |ts| == |us|
    requires forall i :: 0 <= i < |ts| ==> p(ts[i]) == p(us[i]) && ts[i].score == us[i].score
    ensures Count(ts, p) == Count(us, p)
    ensures ScoresPresent(ts, p) == ScoresPresent(us, p)
    ensures ScoresPresent(ts, p) ==> SumScores(ts, p) == SumScores(us, p)
  {
    if |ts| > 0 {
      AggregatesLocal(ts[1..], us[1..], p);
    }
  }

  /** Every task that `p` selects has score `v`. */
  predicate AllSelectedScore(ts: seq<Task>, p: Task -> bool, v: real) {
    forall i :: 0 <= i < |ts| && p(ts[i]) ==> ts[i].score == Some(v)
  }

  /** The mean score of the tasks `p` selects, with the facts both averages share. */
  function Mean(ts: seq<Task>, p: Task -> bool): (r: real)
    requires Count(ts, p) > 0
    requires ScoresPresent(ts, p)
    ensures ScoresInUnit(ts, p) ==> 0.0 <= r <= 1.0
    ensures ScoresInUnit(ts, p) ==> (r == 1.0 <==> AllSelectedScore(ts, p, 1.0))
    ensures ScoresInUnit(ts, p) ==> (r == 0.0 <==> AllSelectedScore(ts, p, 0.0))
  {
    var c := Count(ts, p) as real;
    var r := SumScores(ts, p) / c;
    assert ScoresInUnit(ts, p) ==> (0.0 <= r <= 1.0
      && (r == 1.0 <==> AllSelectedScore(ts, p, 1.0))
      && (r == 0.0 <==> AllSelectedScore(ts, p, 0.0))) by {
      if ScoresInUnit(ts, p) {
        SumBounds(ts, p);
        FractionInUnit(SumScores(ts, p), c);
      }
    }
    r
  }

  lemma FractionInUnit(x: real, c: real)
    requires 0.0 <= x <= c && c > 0.0
    ensures 0.0 <= x / c <= 1.0
    ensures x / c == 1.0 <==> x == c
    ensures x / c == 0.0 <==> x == 0.0
  {
    assert (x / c) * c == x;
  }

  /** `_calculate_score_essential`: the mean score of the essential, applicable
      tasks. The source divides by their count, so it must be positive; the mean
      is 1 exactly when all of them scored 1 and 0 exactly when all scored 0. */
  function ScoreEssential(s: Session): (r: real)
    requires Count(Values(s.tasks), EssentialApplicable) > 0
    requires ScoresPresent(Values(s.tasks), EssentialApplicable)
    ensures ScoresInUnit(Values(s.tasks), EssentialApplicable) ==>
              && 0.0 <= r <= 1.0
              && (r == 1.0 <==> AllSelectedScore(Values(s.tasks), EssentialApplicable, 1.0))
              && (r == 0.0 <==> AllSelectedScore(Values(s.tasks), EssentialApplicable, 0.0))
  {
    Mean(Values(s.tasks), EssentialApplicable)
  }

  /** `_calculate_score_all`: the mean score of the applicable tasks of any
      priority; their count must be positive. */
  function ScoreAll(s: Session): (r: real)
    requires Count(Values(s.tasks), Applicable) > 0
    requires ScoresPresent(Values(s.tasks), Applicable)
    ensures ScoresInUnit(Values(s.tasks), Applicable) ==>
              && 0.0 <= r <= 1.0
              && (r == 1.0 <==> AllSelectedScore(Values(s.tasks), Applicable, 1.0))
              && (r == 0.0 <==> AllSelectedScore(Values(s.tasks), Applicable, 0.0))
  {
    Mean(Values(s.tasks), Applicable)
  }

  /** `_calculate_na_ratio`: the share of `not_applicable` tasks; the source
      divides by the number of tasks, so there must be one. */
  function NaRatio(s: Session): (r: real)
    requires |s.tasks| > 0
    ensures 0.0 <= r <= 1.0
    ensures r == 0.0 <==> forall i :: 0 <= i < |s.tasks| ==> !NotApplicable(s.tasks[i].1)
    ensures r == 1.0 <==> forall i :: 0 <= i < |s.tasks| ==> NotApplicable(s.tasks[i].1)
  {
    var ts := Values(s.tasks);
    var c := Count(ts, NotApplicable);
    FractionInUnit(c as real, |s.tasks| as real);
    assert c == 0 <==> forall i :: 0 <= i < |s.tasks| ==> !NotApplicable(s.tasks[i].1) by {
      assert forall i :: 0 <= i < |s.tasks| ==> ts[i] == s.tasks[i].1;
    }
    assert c == |ts| <==> forall i :: 0 <= i < |s.tasks| ==> NotApplicable(s.tasks[i].1) by {
      assert forall i :: 0 <= i < |s.tasks| ==> ts[i] == s.tasks[i].1;
    }
    c as real / |s.tasks| as real
  }

  /** `SessionHandler.run_statistics`, reading the task values. While a task is
      unresolved nothing changes; otherwise the essential mean, the overall mean
      and the ratio are computed in that order, and the first that fails raises:
      a missing score inside a `sum` is a `TypeError`, an empty essential
      selection a `ZeroDivisionError`. */
  function RunStatistics(s: Session): (r: Result<Session, PyError>)
    ensures IsRunning(s) ==> r == Ok(s)
    ensures r.Ok? ==> r.value.(scoreEssential := s.scoreEssential, scoreAll := s.scoreAll,
                                 ratioNotApplicable := s.ratioNotApplicable) == s
    ensures !IsRunning(s) && r.Ok? ==>
              && r.value.scoreEssential.Some? && r.value.scoreAll.Some? && r.value.ratioNotApplicable.Some?
              && 0.0 <= r.value.ratioNotApplicable.value <= 1.0
    ensures !IsRunning(s) && r.Ok? && ScoresInUnit(Values(s.tasks), Applicable) ==>
              0.0 <= r.value.scoreEssential.value <= 1.0 && 0.0 <= r.value.scoreAll.value <= 1.0
    ensures !IsRunning(s) && |s.tasks| == 0 ==> r == Err(ZeroDivisionError)
    ensures r.Err? ==> r.error == TypeError || r.error == ZeroDivisionError
    ensures !IsRunning(s) ==>
              (r.Ok? <==> ScoresPresent(Values(s.tasks), Applicable)
                          && Count(Values(s.tasks), EssentialApplicable) > 0)
    ensures !IsRunning(s) && r.Ok? ==>
              && ScoresPresent(Values(s.tasks), EssentialApplicable)
              && Count(Values(s.tasks), Applicable) > 0
              && |s.tasks| > 0
    ensures !IsRunning(s) && r.Err? ==>
              (r.error == ZeroDivisionError <==> Count(Values(s.tasks), EssentialApplicable) == 0)
    ensures !IsRunning(s) && r.Ok? ==>
              && r.value.scoreEssential == Some(ScoreEssential(s))
              && r.value.scoreAll == Some(ScoreAll(s))
              && r.value.ratioNotApplicable == Some(NaRatio(s))
  {
    if IsRunning(s) then Ok(s)
    else
      var ts := Values(s.tasks);
      if !ScoresPresent(ts, EssentialApplicable) then Err(TypeError)
      else if Count(ts, EssentialApplicable) == 0 then Err(ZeroDivisionError)
      else if !ScoresPresent(ts, Applicable) then Err(TypeError)
      else
        CountMonotone(ts, EssentialApplicable, Applicable);
        assert ScoresInUnit(ts, Applicable) ==> ScoresInUnit(ts, EssentialApplicable);
        Ok(s.(scoreEssential := Some(ScoreEssential(s)),
              scoreAll := Some(ScoreAll(s)),
              ratioNotApplicable := Some(NaRatio(s))))
  }

  /** Every task of the session carries the score its status gives. */
  predicate AllWellScored(s: Session) {
    forall i :: 0 <= i < |s.tasks| ==> WellScored(s.tasks[i].1)
  }

  lemma WellScoredInUnit(s: Session, p: Task -> bool)
    requires AllWellScored(s)
    requires ScoresPresent(Values(s.tasks), p)
    ensures ScoresInUnit(Values(s.tasks), p)
  {
  }

  /** A well-scored task scores 1 exactly when it succeeded and 0 exactly when
      it failed. */
  lemma SelectedScoreMeansStatus(s: Session, p: Task -> bool)
    requires AllWellScored(s)
    ensures AllSelectedScore(Values(s.tasks), p, 1.0)
            <==> forall i :: 0 <= i < |s.tasks| && p(s.tasks[i].1) ==> s.tasks[i].1.status == TaskStatus.Success
    ensures AllSelectedScore(Values(s.tasks), p, 0.0)
            <==> forall i :: 0 <= i < |s.tasks| && p(s.tasks[i].1) ==> s.tasks[i].1.status == Failed
  {
  }

  /** For tasks built by `NewTask`, finished statistics say something about
      outcomes: the essential mean is 1 exactly when every essential applicable
      task succeeded and 0 exactly when every one failed; likewise the overall
      mean for all applicable tasks. */
  lemma StatisticsMeaning(s: Session)
    requires AllWellScored(s) && !IsRunning(s)
    ensures RunStatistics(s).Ok? ==>
            && (RunStatistics(s).value.scoreEssential == Some(1.0)
                <==> forall i :: 0 <= i < |s.tasks| && EssentialApplicable(s.tasks[i].1)
                       ==> s.tasks[i].1.status == TaskStatus.Success)
            && (RunStatistics(s).value.scoreEssential == Some(0.0)
                <==> forall i :: 0 <= i < |s.tasks| && EssentialApplicable(s.tasks[i].1)
                       ==> s.tasks[i].1.status == Failed)
            && (RunStatistics(s).value.scoreAll == Some(1.0)
                <==> forall i :: 0 <= i < |s.tasks| && Applicable(s.tasks[i].1)
                       ==> s.tasks[i].1.status == TaskStatus.Success)
            && (RunStatistics(s).value.scoreAll == Some(0.0)
                <==> forall i :: 0 <= i < |s.tasks| && Applicable(s.tasks[i].1)
                       ==> s.tasks[i].1.status == Failed)
  {
    if RunStatistics(s).Ok? {
      var r := RunStatistics(s).value;
      assert r.scoreEssential == Some(ScoreEssential(s));
      assert r.scoreAll == Some(ScoreAll(s));
      WellScoredInUnit(s, EssentialApplicable);
      WellScoredInUnit(s, Applicable);
      SelectedScoreMeansStatus(s, EssentialApplicable);
      SelectedScoreMeansStatus(s, Applicable);
    }
  }

  /** An `error` task has no score, so once nothing is unresolved it makes the
      statistics fail; an essential one fails them with `TypeError`. */
  lemma ErrorTaskBreaksStatistics(s: Session, k: nat)
    requires AllWellScored(s) && !IsRunning(s)
    requires k < |s.tasks| && s.tasks[k].1.status == TaskStatus.Error
    ensures RunStatistics(s).Err?
    ensures s.tasks[k].1.priority == Essential ==> RunStatistics(s) == Err(TypeError)
  {
    assert !ScoresPresent(Values(s.tasks), Applicable);
  }

  /** Only the top-level tasks count: two sessions whose tasks differ only in
      their children have the same running state and the same statistics. */
  lemma ChildrenIgnored(s: Session, t: Session)
    requires |s.tasks| == |t.tasks|
    requires forall i :: 0 <= i < |s.tasks| ==>
               s.tasks[i].1.(children := []) == t.tasks[i].1.(children := [])
    ensures IsRunning(s) == IsRunning(t)
    ensures RunStatistics(s).Ok? == RunStatistics(t).Ok?
    ensures RunStatistics(s).Ok? && !IsRunning(s) ==>
              && RunStatistics(s).value.scoreEssential == RunStatistics(t).value.scoreEssential
              && RunStatistics(s).value.scoreAll == RunStatistics(t).value.scoreAll
              && RunStatistics(s).value.ratioNotApplicable == RunStatistics(t).value.ratioNotApplicable
  {
    forall i | 0 <= i < |s.tasks|
      ensures Summary(s.tasks[i].1) == Summary(t.tasks[i].1)
    {
      SameButChildren(s.tasks[i].1, t.tasks[i].1);
    }
    SameSummariesSameStatistics(s, t);
  }

  /** What the aggregates read of a task. */
  function Summary(t: Task): (TaskStatus, TaskPriority, Option<real>) {
    (t.status, t.priority, t.score)
  }

  /** Statistics read each task only through its status, priority and score. */
  lemma SameSummariesSameStatistics(s: Session, t: Session)
    requires |s.tasks| == |t.tasks|
    requires forall i :: 0 <= i < |s.tasks| ==> Summary(s.tasks[i].1) == Summary(t.tasks[i].1)
    ensures IsRunning(s) == IsRunning(t)
    ensures RunStatistics(s).Ok? == RunStatistics(t).Ok?
    ensures RunStatistics(s).Ok? && !IsRunning(s) ==>
              && RunStatistics(s).value.scoreEssential == RunStatistics(t).value.scoreEssential
              && RunStatistics(s).value.scoreAll == RunStatistics(t).value.scoreAll
              && RunStatistics(s).value.ratioNotApplicable == RunStatistics(t).value.ratioNotApplicable
  {
    SameSummariesSameAggregates(s, t);
    SameAggregatesSameOutcome(s, t);
    if !IsRunning(s) && RunStatistics(s).Ok? {
      SameAggregatesSameMeans(s, t);
    }
  }

  lemma SameSummariesSameAggregates(s: Session, t: Session)
    requires |s.tasks| == |t.tasks|
    requires forall i :: 0 <= i < |s.tasks| ==> Summary(s.tasks[i].1) == Summary(t.tasks[i].1)
    ensures IsRunning(s) == IsRunning(t)
    ensures SameAggregates(s, t)
  {
    var ts, us := Values(s.tasks), Values(t.tasks);
    forall i | 0 <= i < |ts|
      ensures EssentialApplicable(ts[i]) == EssentialApplicable(us[i])
      ensures Applicable(ts[i]) == Applicable(us[i])
      ensures NotApplicable(ts[i]) == NotApplicable(us[i])
      ensures ts[i].score == us[i].score && ts[i].status == us[i].status
    {
      assert Summary(ts[i]) == Summary(us[i]);
    }
    AggregatesLocal(ts, us, EssentialApplicable);
    AggregatesLocal(ts, us, Applicable);
    AggregatesLocal(ts, us, NotApplicable);
    SameStatusesSameRunning(s, t);
  }

  /** The counts, the presence of scores and the sums that the statistics read agree. */
  predicate SameAggregates(s: Session, t: Session) {
    var ts, us := Values(s.tasks), Values(t.tasks);
    && |ts| == |us|
    && Count(ts, EssentialApplicable) == Count(us, EssentialApplicable)
    && Count(ts, Applicable) == Count(us, Applicable)
    && Count(ts, NotApplicable) == Count(us, NotApplicable)
    && ScoresPresent(ts, EssentialApplicable) == ScoresPresent(us, EssentialApplicable)
    && ScoresPresent(ts, Applicable) == ScoresPresent(us, Applicable)
    && (ScoresPresent(ts, EssentialApplicable) ==>
          SumScores(ts, EssentialApplicable) == SumScores(us, EssentialApplicable))
    && (ScoresPresent(ts, Applicable) ==> SumScores(ts, Applicable) == SumScores(us, Applicable))
  }

  lemma SameAggregatesSameOutcome(s: Session, t: Session)
    ensures IsRunning(s) == IsRunning(t) && SameAggregates(s, t) ==>
            RunStatistics(s).Ok? == RunStatistics(t).Ok?
  {
  }

  lemma SameAggregatesSameMeans(s: Session, t: Session)
    ensures !IsRunning(s) && !IsRunning(t) && SameAggregates(s, t) && RunStatistics(s).Ok? ==>
            && RunStatistics(t).Ok?
            && RunStatistics(s).value.scoreEssential == RunStatistics(t).value.scoreEssential
            && RunStatistics(s).value.scoreAll == RunStatistics(t).value.scoreAll
            && RunStatistics(s).value.ratioNotApplicable == RunStatistics(t).value.ratioNotApplicable
  {
    if !IsRunning(s) && !IsRunning(t) && SameAggregates(s, t) && RunStatistics(s).Ok? {
      assert ScoreEssential(s) == ScoreEssential(t);
      assert ScoreAll(s) == ScoreAll(t);
      assert NaRatio(s) == NaRatio(t);
    }
  }

  lemma SameStatusesSameRunning(s: Session, t: Session)
    requires |s.tasks| == |t.tasks|
    requires forall i :: 0 <= i < |s.tasks| ==> Values(s.tasks)[i].status == Values(t.tasks)[i].status
    ensures IsRunning(s) == IsRunning(t)
  {
    var ts, us := Values(s.tasks), Values(t.tasks);
    assert forall i :: 0 <= i < |ts| ==> Unresolved(ts[i]) == Unresolved(us[i]);
  }

  lemma SameButChildren(a: Task, b: Task)
    requires a.(children := []) == b.(children := [])
    ensures a.status == b.status && a.priority == b.priority && a.score == b.score
  {
    assert a.(children := []).status == a.status;
  }

  /** Three essential tasks, one succeeded, one failed, one not applicable. */
  function ScenarioTasks(): seq<Task> {
    [Task("a", "A", "s", [], Essential, TaskStatus.Success, "", false, Some(1.0)),
     Task("b", "B", "s", [], Essential, Failed, "", false, Some(0.0)),
     Task("c", "C", "s", [], Essential, TaskStatus.NotApplicable, "", false, None)]
  }

  function ScenarioSession(): Session {
    var ts := ScenarioTasks();
    Session("s", "model.xml", [("a", ts[0]), ("b", ts[1]), ("c", ts[2])], SessionStatus.Queued, None, None, None)
  }

  /** In that session both means count the two applicable tasks and the ratio
      counts all three. */
  lemma ScoringScenario()
    ensures RunStatistics(ScenarioSession())
         == Ok(ScenarioSession().(scoreEssential := Some(0.5), scoreAll := Some(0.5),
                                  ratioNotApplicable := Some(1.0 / 3.0)))
  {
    ScenarioValues();
    ScenarioCounts();
    ScenarioSums();
    ScenarioMeans();
  }

  lemma ScenarioMeans()
    ensures ScenarioAggregatesHold()
    ensures ScoreEssential(ScenarioSession()) == 0.5
    ensures ScoreAll(ScenarioSession()) == 0.5
    ensures NaRatio(ScenarioSession()) == 1.0 / 3.0
  {
    ScenarioValues();
    ScenarioCounts();
    ScenarioSums();
    var ts := Values(ScenarioSession().tasks);
    assert Mean(ts, EssentialApplicable) == 1.0 / 2.0;
    assert Mean(ts, Applicable) == 1.0 / 2.0;
  }

  predicate ScenarioAggregatesHold() {
    var ts := Values(ScenarioSession().tasks);
    && !IsRunning(ScenarioSession())
    && Count(ts, EssentialApplicable) == 2 && Count(ts, Applicable) == 2
    && ScoresPresent(ts, EssentialApplicable) && ScoresPresent(ts, Applicable)
  }

  lemma ScenarioValues()
    ensures Values(ScenarioSession().tasks) == ScenarioTasks()
    ensures !IsRunning(ScenarioSession())
  {
    var s := ScenarioSession();
    assert Values(s.tasks) == ScenarioTasks();
    assert !Unresolved(s.tasks[0].1) && !Unresolved(s.tasks[1].1) && !Unresolved(s.tasks[2].1);
  }

  lemma ScenarioCounts()
    ensures Count(ScenarioTasks(), EssentialApplicable) == 2
    ensures Count(ScenarioTasks(), Applicable) == 2
    ensures Count(ScenarioTasks(), NotApplicable) == 1
  {
    var ts := ScenarioTasks();
    var rest, last := ts[1..], ts[2..];
    assert rest[1..] == last && last[1..] == [];
    assert Count(last, EssentialApplicable) == 0 && Count(rest, EssentialApplicable) == 1;
    assert Count(last, Applicable) == 0 && Count(rest, Applicable) == 1;
    assert Count(last, NotApplicable) == 1 && Count(rest, NotApplicable) == 1;
  }

  lemma ScenarioSums()
    ensures ScoresPresent(ScenarioTasks(), Applicable) && ScoresPresent(ScenarioTasks(), EssentialApplicable)
    ensures SumScores(ScenarioTasks(), EssentialApplicable) == 1.0
    ensures SumScores(ScenarioTasks(), Applicable) == 1.0
  {
    var ts := ScenarioTasks();
    var rest, last := ts[1..], ts[2..];
    assert rest[1..] == last && last[1..] == [];
    assert !Applicable(last[0]) && !EssentialApplicable(last[0]);
    assert SumScores([], EssentialApplicable) == 0.0 && SumScores([], Applicable) == 0.0;
    assert SumScores(last, EssentialApplicable) == 0.0;
    assert SumScores(last, Applicable) == 0.0;
    assert rest[0].score == Some(0.0) && Applicable(rest[0]) && EssentialApplicable(rest[0]);
    assert SumScores(rest, EssentialApplicable) == 0.0;
    assert SumScores(rest, Applicable) == 0.0;
  }

  /** `is_running` as written: `for t in self.session_model.tasks` walks the
      dictionary's keys, and a key string has no `status` attribute, so any
      session with a task raises `AttributeError`; an empty one answers `False`. */
  function IsRunningAsWritten(s: Session): (r: Result<bool, PyError>)
    ensures r.Ok? <==> |s.tasks| == 0
  {
    if |s.tasks| == 0 then Ok(false) else Err(AttributeError("status"))
  }

  /** `run_statistics` as written. `is_running` answers only for an empty
      dictionary, and then the essential count is 0 and `_calculate_score_essential`
      divides by it. */
  function RunStatisticsAsWritten(s: Session): (r: Result<Session, PyError>)
    ensures r.Ok? ==> IsRunningAsWritten(s) == Ok(true) && r.value == s
    ensures r.Err? ==> r.error == ZeroDivisionError || r.error == AttributeError("status")
    ensures |s.tasks| > 0 ==> r == IsRunningAsWritten(s).PropagateFailure()
  {
    match IsRunningAsWritten(s)
    case Err(e) => Err(e)
    case Ok(running) => if running then Ok(s) else Err(ZeroDivisionError)
  }

  /** As written, statistics can never be computed: every session raises. */
  lemma RunStatisticsAsWrittenNeverSucceeds(s: Session)
    ensures RunStatisticsAsWritten(s).Err?
    ensures |s.tasks| > 0 ==> RunStatisticsAsWritten(s) == Err(AttributeError("status"))
    ensures |s.tasks| == 0 ==> RunStatisticsAsWritten(s) == Err(ZeroDivisionError)
  {
  }

  /** A finished session with one successful task: read through the values it is
      not running and scores 1, read through the keys it raises. */
  lemma KeysIterationCounterexample()
    ensures var s := Session("s", "model.xml",
                             [("a", Task("a", "A", "s", [], Essential, TaskStatus.Success, "", false, Some(1.0)))],
                             SessionStatus.Queued, None, None, None);
            && IsRunningAsWritten(s) == Err(AttributeError("status"))
            && !IsRunning(s)
            && RunStatistics(s) == Ok(s.(scoreEssential := Some(1.0), scoreAll := Some(1.0),
                                         ratioNotApplicable := Some(0.0)))
  {
  }
}

=== FILE: strings.dfy ===
/** The few Python `str` operations the modelled code relies on. */
module Strings {

  /** Python's `sub in s`: `sub` occurs as a contiguous piece of `s`
      (the empty string occurs in every string). */
  predicate Contains(s: string, sub: string) {
    exists i | 0 <= i <= |s| - |sub| :: OccursAt(s, sub, i)
  }

  /** `sub` starts at position `i` of `s`. */
  predicate OccursAt(s: string, sub: string, i: int) {
    0 <= i <= |s| - |sub| && s[i..i + |sub|] == sub
  }

  /** Python's `s.startswith(prefix)`. */
  predicate StartsWith(s: string, prefix: string) {
    |prefix| <= |s| && s[..|prefix|] == prefix
  }

  /** Python's `s.split(".")[-1]`: the text after the last dot, or all of `s`
      when it holds no dot. */
  function AfterLastDot(s: string): (r: string)
    ensures |r| <= |s| && r == s[|s| - |r|..]
    ensures forall i :: 0 <= i < |r| ==> r[i] != '.'
    ensures |r| < |s| ==> s[|s| - |r| - 1] == '.'
    decreases |s|
  {
    if |s| == 0 then ""
    else if s[|s| - 1] == '.' then ""
    else AfterLastDot(s[..|s| - 1]) + [s[|s| - 1]]
  }

  /** The contract of `AfterLastDot` determines it: any dot-free suffix that is
      all of `s` or follows a dot is the answer. */
  lemma {:induction false} AfterLastDotUnique(s: string, t: string)
    requires |t| <= |s| && t == s[|s| - |t|..]
    requires forall i :: 0 <= i < |t| ==> t[i] != '.'
    requires |t| < |s| ==> s[|s| - |t| - 1] == '.'
    ensures AfterLastDot(s) == t
    decreases |s|
  {
    if |s| > 0 && s[|s| - 1] != '.' {
      assert |t| > 0;
      var s', t' := s[..|s| - 1], t[..|t| - 1];
      assert t' == s'[|s'| - |t'|..];
      AfterLastDotUnique(s', t');
      assert AfterLastDot(s) == AfterLastDot(s') + [s[|s| - 1]];
      assert t == t' + [s[|s| - 1]];
    }
  }

  /** A name, a dot and a dot-free extension yield that extension. */
  lemma AfterLastDotExtension(stem: string, ext: string)
    requires forall i :: 0 <= i < |ext| ==> ext[i] != '.'
    ensures AfterLastDot(stem + "." + ext) == ext
  {
    var s := stem + "." + ext;
    assert s[|s| - |ext|..] == ext;
    AfterLastDotUnique(s, ext);
  }
}

=== FILE: tasks.dfy ===
/** `app/models/tasks.py`: the outcome and priority enumerations and the
    `Task` record whose score is derived from its status when it is built. */
module Tasks {
  import opened Results
  import opened Errors
  import Json

  datatype TaskStatus = Queued | Started | Success | Failed | Warnings | Error | NotApplicable

  datatype TaskPriority = Essential | Important | Useful

  const AllStatuses: seq<TaskStatus> :=
    [Queued, Started, Success, Failed, Warnings, Error, NotApplicable]

  const AllPriorities: seq<TaskPriority> := [Essential, Important, Useful]

  /** The string value of each member (`TaskStatus.x.value`). */
  function StatusValue(s: TaskStatus): string {
    match s
    case Queued => "queued"
    case Started => "started"
    case Success => "success"
    case Failed => "failed"
    case Warnings => "warnings"
    case Error => "error"
    case NotApplicable => "not_applicable"
  }

  /** `TaskStatus(v)`: the member whose value is `v`, or `None` where Python
      raises `ValueError`. */
  function ParseStatus(v: string): (r: Option<TaskStatus>)
    ensures r.Some? ==> StatusValue(r.value) == v
    ensures forall s :: StatusValue(s) == v ==> r == Some(s)
  {
    if v == "queued" then Some(Queued)
    else if v == "started" then Some(Started)
    else if v == "success" then Some(Success)
    else if v == "failed" then Some(Failed)
    else if v == "warnings" then Some(Warnings)
    else if v == "error" then Some(Error)
    else if v == "not_applicable" then Some(NotApplicable)
    else None
  }

  /** The enumerations have exactly seven and three members, with distinct values. */
  lemma EnumerationSizes()
    ensures forall s: TaskStatus :: s in AllStatuses
    ensures forall i, j :: 0 <= i < j < |AllStatuses| ==> StatusValue(AllStatuses[i]) != StatusValue(AllStatuses[j])
    ensures |AllStatuses| == 7
    ensures forall p: TaskPriority :: p in AllPriorities
    ensures |AllPriorities| == 3
    ensures forall i, j :: 0 <= i < j < |AllPriorities| ==> AllPriorities[i] != AllPriorities[j]
  {
    forall s: TaskStatus
      ensures s in AllStatuses
    {
      match s
      case Queued => assert AllStatuses[0] == s;
      case Started => assert AllStatuses[1] == s;
      case Success => assert AllStatuses[2] == s;
      case Failed => assert AllStatuses[3] == s;
      case Warnings => assert AllStatuses[4] == s;
      case Error => assert AllStatuses[5] == s;
      case NotApplicable => assert AllStatuses[6] == s;
    }
    forall p: TaskPriority
      ensures p in AllPriorities
    {
      match p
      case Essential => assert AllPriorities[0] == p;
      case Important => assert AllPriorities[1] == p;
      case Useful => assert AllPriorities[2] == p;
    }
  }

  /** The literal dictionary inside `make_score`, keyed by status values. */
  const ScoreTable: map<string, real> := map["success" := 1.0, "failed" := 0.0, "warnings" := 0.5]

  /** The `score` validator. It runs even when no score is given and before any
      given score is checked, and never looks at that score (`supplied`).
      `validated` is the already validated status, `None` when `status` failed
      validation and so is missing from `values`. */
  function MakeScore(supplied: Option<real>, validated: Option<TaskStatus>): (r: Option<real>)
    ensures r == Some(1.0) <==> validated == Some(Success)
    ensures r == Some(0.5) <==> validated == Some(Warnings)
    ensures r == Some(0.0) <==> validated == Some(Failed)
    ensures r.None? <==> validated.None? || validated.value in {Queued, Started, Error, NotApplicable}
  {
    if validated.Some? && StatusValue(validated.value) in ScoreTable then
      Some(ScoreTable[StatusValue(validated.value)])
    else None
  }

  /** The score a task built with status `s` carries. */
  function ScoreFor(s: TaskStatus): Option<real> {
    MakeScore(None, Some(s))
  }

  datatype Task = Task(
    id: string,
    name: string,
    sessionId: string,
    children: seq<(string, Task)>,
    priority: TaskPriority,
    status: TaskStatus,
    comment: string,
    disabled: bool,
    score: Option<real>)

  /** A task whose score is the one its status gives. */
  predicate WellScored(t: Task) {
    t.score == ScoreFor(t.status)
  }

  /** The keyword arguments of `Task(...)`; `None` stands for an argument left
      out, and the status arrives as its string value. */
  datatype TaskInput = TaskInput(
    id: string,
    name: string,
    sessionId: string,
    children: Option<seq<(string, Task)>>,
    priority: Option<TaskPriority>,
    status: Option<string>,
    comment: Option<string>,
    disabled: Option<bool>,
    score: Option<real>)

  /** Building a `Task`: defaults fill the missing fields, the status is
      validated, and the score is recomputed from it whatever was supplied. */
  function NewTask(input: TaskInput): (r: Result<Task, PyError>)
    ensures r.Err? <==> input.status.Some? && ParseStatus(input.status.value).None?
    ensures r.Err? ==> r.error == ValidationError("status")
    ensures r.Ok? ==> WellScored(r.value)
    ensures r.Ok? ==> StatusValue(r.value.status) == (if input.status.Some? then input.status.value else "queued")
    ensures r.Ok? ==> r.value.id == input.id && r.value.name == input.name && r.value.sessionId == input.sessionId
    ensures r.Ok? && input.priority.Some? ==> r.value.priority == input.priority.value
    ensures r.Ok? && input.children.Some? ==> r.value.children == input.children.value
    ensures r.Ok? && input.comment.Some? ==> r.value.comment == input.comment.value
    ensures r.Ok? && input.disabled.Some? ==> r.value.disabled == input.disabled.value
  {
    var status := if input.status.None? then Some(Queued) else ParseStatus(input.status.value);
    var score := MakeScore(input.score, status);
    if status.None? then Err(ValidationError("status"))
    else
      Ok(Task(
        input.id, input.name, input.sessionId,
        if input.children.Some? then input.children.value else [],
        if input.priority.Some? then input.priority.value else Essential,
        status.value,
        if input.comment.Some? then input.comment.value else "",
        if input.disabled.Some? then input.disabled.value else false,
        score))
  }

  /** A task given only its identifiers is queued, essential, enabled, has an
      empty comment and no children, and so carries no score, whatever score the
      caller tried to pass. */
  lemma DefaultTask(id: string, name: string, sessionId: string, supplied: Option<real>)
    ensures NewTask(TaskInput(id, name, sessionId, None, None, None, None, None, supplied))
         == Ok(Task(id, name, sessionId, [], Essential, Queued, "", false, None))
  {
  }

  /** The supplied score never influences the built task. */
  lemma SuppliedScoreIgnored(input: TaskInput, other: Option<real>)
    ensures NewTask(input) == NewTask(input.(score := other))
  {
  }

  /** The evaluators read `task_dict["session_id"]` and then `task_dict["id"]`
      from a task's dictionary form: before the decision in the f1 and f4
      tasks, and after the route walk in the CSH tasks. */
  function TaskDictIds(taskDict: map<string, Json.Json>): (r: Result<(Json.Json, Json.Json), PyError>)
    ensures "session_id" !in taskDict ==> r == Err(KeyError("session_id"))
    ensures "session_id" in taskDict && "id" !in taskDict ==> r == Err(KeyError("id"))
    ensures r.Ok? <==> "session_id" in taskDict && "id" in taskDict
    ensures r.Ok? ==> r.value == (taskDict["session_id"], taskDict["id"])
  {
    if "session_id" !in taskDict then Err(KeyError("session_id"))
    else if "id" !in taskDict then Err(KeyError("id"))
    else Ok((taskDict["session_id"], taskDict["id"]))
  }
}
